=== FILE: README.md ===
# osu-beatmap-downloader: the download engine, in Dafny

This project models the download engine of osu-beatmap-downloader
(`src/downloader.rs`) and the file-name derivation of its beatmap record
(`src/types.rs`), and proves properties of the model.

The engine picks a mirror, Nerinyan or Catboy, from `USE_ALTERNATIVE_MIRROR`.
It scans the output directory for `.osz` archives already saved and selects
the beatmaps whose set is not on disk. Then it downloads each one through a
shared rate limiter. That limiter tracks a per-minute quota: Nerinyan reports
the quota in response headers, while Catboy's quota is polled from a
ratelimits endpoint at start-up and after every 50th completed download.
A download retries after each HTTP 429, up to five times, and backs off for
the `retry-after` seconds (10 by default).

Modules, in dependency order:

- `Wrappers`: `Option`.
- `StdText`: the Rust standard-library behaviour the engine relies on:
  - `format!("{}", n)` and `str::parse::<u32>`/`<u64>`;
  - `split_whitespace().next()`, `char::is_control` and ASCII `to_lowercase`;
  - `Path::extension`.
- `BeatmapTypes`: `BeatmapInfo`, `sanitize_filename` and `BeatmapInfo::filename`.
- `Mirrors`: `Mirror`, `from_env`, `download_url`, `name` and the `max_concurrent` table.
- `RateLimiting`: pure specification functions over `QuotaState`, plus the
  class `RateLimiter`. Its fields are updated in place by `Step`, `Wait`,
  `UpdateFromHeaders`, `RefreshCatboyLimits` and `OnDownloadComplete`, and
  each method is proved equal to its specification function.
- `Downloading`: the retry loop of `download_beatmap`:
  - the method `DownloadBeatmap` over a `RateLimiter`;
  - its specification `Download`, written as the mutually recursive `Fetch` and `Attempt`.
- `Scanning`: the existing-archive scan (`EntryId`, `ExistingIds`) and the
  work-set filter (`MissingMaps`).
- `Orchestration`: `download_beatmaps` as the method `DownloadBeatmaps`,
  proved equal to the function `Run`, with the downloads run one after the other.

Time is an integer number of milliseconds supplied by the caller. A sleep is
returned as its duration, and the clock then moves on by exactly that much.
The network, the directory listing and the random jitter are inputs:
- each download gets a script of replies, one per request it may send;
- the limiter's refresh has its reply;
- the scan gets a listing of directory items.

The model keeps these details of the code:
- the set id comes first in the file name;
- a failed first Catboy refresh aborts the run (`?` at
  `src/downloader.rs:276`), while later refreshes swallow their errors;
- the download count only moves for Catboy;
- a download sends up to six requests: the first and five retries;
- `wait` never returns once no unit is left and the cap is zero
  (`RateLimiting.WaitStarves`). Nerinyan headers reporting a zero limit, or
  a Catboy ratelimits body whose `types.download` is 0, can reach that state;
- the work set keeps every map of a set. The fetch step records one map per
  played difficulty (`src/fetcher.rs:54-65`), so a set with several played
  difficulties is downloaded once per difficulty; with Nerinyan those
  downloads can write the same file at the same time.

## Model

| member | source | states |
|---|---|---|
| StdText.DecimalString | src/types.rs:18 | `format!` of an unsigned number is a non-empty digit string, with no leading zero except for 0 itself |
| StdText.ParseUnsigned | src/downloader.rs:168-173 | a parsed value is always below the type's bound |
| StdText.ParseU32 | src/downloader.rs:168-170 | `parse::<u32>` yields only values below 2^32 |
| StdText.ParseU64 | src/downloader.rs:171-173 | `parse::<u64>` yields only values below 2^64 |
| StdText.DigitsValueOfDecimal | src/types.rs:18 | the digits `format!` prints denote the number printed |
| StdText.ParseFromDigits | src/downloader.rs:169 | a left-to-right digit read agrees with the reference value on all-digit strings and fails on every other string |
| StdText.ParseUnsignedSpec | src/downloader.rs:168-173 | the parse accepts exactly an optional `+` followed by a non-empty run of digits whose value is below the bound, and yields that value |
| StdText.ParseDecimal | src/downloader.rs:168-173 | parsing what `format!` prints, with or without a leading `+`, gives the number back |
| StdText.ParseRejects | src/downloader.rs:168-173 | the empty string, a lone `+` and any string with a non-digit after the optional `+` (a `-`, whitespace) are refused |
| StdText.ParseOverflow | src/downloader.rs:168-173 | a digit string at or above the bound is refused; it does not wrap around |
| StdText.SkipWhitespace | src/downloader.rs:250 | returns the first non-whitespace index at or after `i` |
| StdText.SkipWord | src/downloader.rs:250 | returns the first whitespace index at or after `i` |
| StdText.FirstToken | src/downloader.rs:250 | `split_whitespace().next()` is none exactly for all-whitespace text; otherwise it is the first maximal run of non-whitespace: a non-empty slice of the text preceded only by whitespace and followed by whitespace or the end |
| StdText.FirstTokenOfWord | src/downloader.rs:250 | a leading word followed by whitespace is the first token, whatever follows |
| StdText.Lowercase | src/downloader.rs:26 | lower-casing keeps the length and maps every character on its own |
| StdText.LastDot | src/downloader.rs:242 | returns the index of the last `.`, or none when the name has no `.` |
| StdText.Extension | src/downloader.rs:242 | an extension is the text after a `.` that is not the name's first character |
| StdText.ExtensionOfSuffix | src/downloader.rs:242 | a non-empty stem, a dot and a dot-free suffix give that suffix as the extension |
| BeatmapTypes.ReplaceUnsafe | src/types.rs:24-28 | the mapped character is safe, and it is the input or `_` |
| BeatmapTypes.ReplaceAll | src/types.rs:23-29 | the mapped string has the input's length and no unsafe character |
| BeatmapTypes.TrimStartFrom | src/types.rs:30 | skips exactly the leading dots and spaces |
| BeatmapTypes.TrimEndFrom | src/types.rs:30 | skips exactly the trailing dots and spaces |
| BeatmapTypes.TrimMatchesSlice | src/types.rs:30 | `trim_matches` returns a slice that does not start or end with `.` or ` `, and everything cut off on either side is `.` or ` ` |
| BeatmapTypes.SanitizeSpec | src/types.rs:22-32 | each forbidden or control character becomes `_` and every other character is kept; the result has no unsafe character, does not start or end with `.` or ` `, and is a contiguous slice of the mapped input, no longer than the input |
| BeatmapTypes.SanitizeFixedPoint | src/types.rs:22-32 | a safe, trimmed string is its own sanitization |
| BeatmapTypes.SanitizeIdempotent | src/types.rs:22-32 | sanitizing twice is sanitizing once |
| BeatmapTypes.FilenameSafe | src/types.rs:15-19 | the file name contains no forbidden or control character |
| BeatmapTypes.FilenameShape | src/types.rs:15-19 | the file name starts with the decimal set id and a space, ends with ".osz", is safe, and does not start or end with `.` or ` ` |
| BeatmapTypes.SanitizeExampleArtist | src/types.rs:22-32 | "A<B>" sanitizes to "A_B_" |
| BeatmapTypes.SanitizeExampleTitle | src/types.rs:22-32 | "Bad/Name:?" sanitizes to "Bad_Name__" |
| BeatmapTypes.FilenameExample | src/types.rs:15-19 | set 42 with artist "A<B>" and title "Bad/Name:?" is saved as "42 A_B_ - Bad_Name__.osz" |
| Mirrors.Name | src/downloader.rs:42-47 | every mirror has a non-empty display name |
| Mirrors.MaxConcurrent | src/downloader.rs:291-294 | concurrency is at least 1; it is 1 exactly for Catboy and 3 for Nerinyan |
| Mirrors.FromEnvTruthy | src/downloader.rs:23-33 | Catboy is chosen exactly for "true" and "yes" in any letter case and for "1"; an unset or empty variable gives Nerinyan |
| Mirrors.DownloadUrlRoundTrip | src/downloader.rs:35-40 | the URL is the mirror's prefix followed by text that parses back to the set id |
| Mirrors.DownloadUrlInjective | src/downloader.rs:35-40 | two downloads share a URL only when both mirror and set id are the same |
| RateLimiting.WaitStarves | src/downloader.rs:92-114 | with no unit left and a cap of zero, the `wait` loop never returns, however many iterations run |
| RateLimiting.AcquireIsLoop | src/downloader.rs:92-114 | the closed-form `Acquire` is what the `wait` loop does: unless starved it returns within three iterations with `Acquire`'s result, and it returns exactly when the state is not starved |
| RateLimiting.WaitFromTiming | src/downloader.rs:92-114 | `wait` returns at `now` plus its sleeps. From an empty quota it never returns before the window ends, and then leaves cap − 1 units. With a unit available it returns at once, one unit fewer and nothing else changed. Cap and download count never change |
| RateLimiting.AcquireTiming | src/downloader.rs:92-114 | the same for `Acquire`: it returns at `now` plus its sleeps, not before `now`, never before the window ends when no unit was left, and a stall changes nothing |
| RateLimiting.AcquireRefillsAtOnce | src/downloader.rs:103-106 | with no unit left, a positive cap and the window ended (`now >= resetAt`, the boundary included), `wait` refills and takes a unit at once, without sleeping, and the new window ends a minute from now |
| RateLimiting.AcquireWaitsForWindow | src/downloader.rs:109-112 | with no unit left and the window ending in 2 s, `wait` does not return before those 2 s |
| RateLimiting.HeaderU32 | src/downloader.rs:168-170 | a header value is present exactly when the key exists and its value parses as a `u32` |
| RateLimiting.HeaderU64 | src/downloader.rs:171-173 | a header value is present exactly when the key exists and its value parses as a `u64` |
| RateLimiting.ApplyHeadersSpec | src/downloader.rs:117-133 | For Nerinyan, `remaining` and `limitCap` take their header's value when it parses and are kept otherwise. `resetAt` becomes `now` plus one second more than `x-ratelimit-reset`, or else `retry-after`, says. The count is untouched, and for Catboy nothing changes |
| RateLimiting.ApplyHeadersIdempotent | src/downloader.rs:117-133 | applying the same headers twice at the same time is applying them once |
| RateLimiting.ApplyHeadersExample | src/downloader.rs:121-123 | `x-ratelimit-remaining-minute: 5` sets `remaining` to 5 for Nerinyan only |
| RateLimiting.ParseExamples | src/downloader.rs:168-170 | "100" and "10" parse as `u32` |
| RateLimiting.RemainingMayExceedCap | src/downloader.rs:121-126 | headers can leave more units remaining than the cap, so no `remaining <= limitCap` invariant holds |
| RateLimiting.RefreshSpec | src/downloader.rs:136-148 | The state changes only for Catboy, on a 2xx whose body decodes; then both counters come from the body and the window restarts. The count is untouched. An error is reported exactly when the request failed or a 2xx body did not decode, and an error leaves the state unchanged |
| RateLimiting.CompleteSpec | src/downloader.rs:150-164 | For Catboy the count rises by exactly one. A refresh is requested exactly when the new count is a multiple of 50, and otherwise nothing else changes. For Nerinyan nothing changes |
| RateLimiting.RefreshPointsCount | src/downloader.rs:155-158 | counting from `c` to `c + n` passes `(c + n) / 50 - c / 50` multiples of 50 |
| RateLimiting.CompleteAllCounts | src/downloader.rs:150-164 | over consecutive Catboy completions the count rises by one each, and one refresh is asked for at each multiple of 50 reached |
| RateLimiting.CompleteAllRefreshes | src/downloader.rs:150-164 | `n` completions from count `c` end at count `c + n` having asked for `(c + n) / 50 - c / 50` refreshes |
| RateLimiting.RateLimiter.constructor | src/downloader.rs:78-89 | a new limiter has 60 units, a cap of 60, a count of 0 and a window ending a minute from now |
| RateLimiting.RateLimiter.Step | src/downloader.rs:96-110 | one iteration of `wait` consumes a unit, refills, or asks for a sleep until 100 ms past the window's end |
| RateLimiting.RateLimiter.Wait | src/downloader.rs:92-114 | the loop's result and new state are `Acquire` of the old state |
| RateLimiting.RateLimiter.UpdateFromHeaders | src/downloader.rs:117-133 | the new state is `ApplyHeaders` of the old one |
| RateLimiting.RateLimiter.RefreshCatboyLimits | src/downloader.rs:136-148 | the result and new state are `Refresh` of the old state |
| RateLimiting.RateLimiter.OnDownloadComplete | src/downloader.rs:150-164 | the result and new state are `Complete` of the old state |
| Downloading.FetchBounds | src/downloader.rs:187-228 | at most six requests are sent, every request but the last is followed by one back-off, and a stall sends nothing more |
| Downloading.FetchBackoffs | src/downloader.rs:203-211 | every back-off follows a 429 reply and lasts that reply's `retry-after` seconds |
| Downloading.FetchVerdict | src/downloader.rs:190-228 | unless the limiter stalls, the reply to the last request decides the outcome, and a 429 is the last reply only on the sixth request |
| Downloading.DownloadLastReply | src/downloader.rs:200-227 | The outcome follows from the last reply, each case both ways: a transport error; "too many rate limits" exactly on a sixth 429; an HTTP error carrying any non-429, non-2xx status; a write failure for a 2xx not saved; a download for a 2xx saved |
| Downloading.DownloadBackoffs | src/downloader.rs:203-211 | every request but the last is answered by 429 and followed by a back-off of its `retry-after` seconds (10 by default) |
| Downloading.FetchCountsOnce | src/downloader.rs:218-225 | the download count moves only through the completion of a successful download, for Catboy, by exactly one |
| Downloading.FetchConsumes | src/downloader.rs:190-211 | with Catboy and enough units for every request left, each request is preceded by a `wait` that takes one unit without sleeping, so the loop ends with one unit less per request sent and the window and cap untouched, unless a successful download reached a multiple of 50 |
| Downloading.FetchFeedsHeaders | src/downloader.rs:200-201 | with Nerinyan, each quota field the last reply's headers report (remaining, limit, reset or retry-after) is what the loop leaves, the reset counted from when that request was sent |
| Downloading.FetchRefreshesAt50 | src/downloader.rs:225 | a Catboy download that brings the count to a multiple of 50 refreshes the limiter: after a 2xx ratelimits reply with two `u32`s, the quota is that reply's, the window starts at the download's end and the count is one higher |
| Downloading.CatboyNeverStalls | src/downloader.rs:190-211 | with Catboy and a positive cap, the limiter never hangs, so the loop ends with a download or an error |
| Downloading.FetchTiming | src/downloader.rs:190-211 | the clock moves by exactly the limiter's sleeps and the back-offs |
| Downloading.DownloadTiming | src/downloader.rs:190-211 | a download ends at its start plus every limiter sleep plus every back-off, never before it started |
| Downloading.SixRateLimitsFail | src/downloader.rs:203-206 | six 429 replies in a row fail with "Hit rate limit too many times" after exactly six requests |
| Downloading.RetryThenSucceed | src/downloader.rs:203-227 | a 429 with `retry-after: 1` followed by a saved 200 downloads after two requests and one back-off of one second |
| Downloading.NotFoundFails | src/downloader.rs:214-216 | a 404 fails with that status after one request, with no retry |
| Downloading.DownloadBeatmap | src/downloader.rs:175-229 | the loop over the shared limiter returns, and leaves the limiter in, exactly what `Download` specifies; so the `Fetch` lemmas hold of it: a `wait` taking a unit before each request, the headers of the last response fed to the limiter, and a completed download reported to it |
| Scanning.EntryId | src/downloader.rs:240-252 | an item counts only when it is a readable entry with extension "osz", a readable non-zero size and a Unicode name; such an entry yields exactly the `u32` its name's first whitespace-separated token parses as, or nothing when there is no token or it does not parse |
| Scanning.Collect | src/downloader.rs:243-253 | the collected set holds exactly the values found |
| Scanning.ExistingIds | src/downloader.rs:240-253 | an id is on disk exactly when some item passes the filters with that id |
| Scanning.MissingMaps | src/downloader.rs:255-258 | a map is selected exactly when it is among the maps and its set is not on disk; no more maps than given |
| Scanning.MissingMapsAppend | src/downloader.rs:255-258 | the filter keeps the order: filtering a concatenation is concatenating the filtered parts |
| Scanning.MissingMapsEmpty | src/downloader.rs:255-267 | nothing is selected exactly when every set is on disk already |
| Scanning.ExistingIdsAppend | src/downloader.rs:240-253 | scanning two listings is the union of scanning each |
| Scanning.OszExtension | src/downloader.rs:242 | a name ending in ".osz" after a non-empty stem has extension "osz" |
| Scanning.LeadingId | src/downloader.rs:249-251 | the first token of "{id} {rest}.osz" is the decimal id |
| Scanning.NameRecognised | src/downloader.rs:240-252 | a non-empty file named "{id} {rest}.osz" is recognised as set `id` |
| Scanning.FilenameRecognised | src/downloader.rs:240-252 | a non-empty file saved under `BeatmapInfo::filename` is recognised as its set |
| Scanning.DownloadedMapIsSkipped | src/downloader.rs:240-258 | a saved archive for a set removes every map of that set from the work set |
| Scanning.RescanAfterDownload | src/downloader.rs:240-258 | once a non-empty file is saved for every selected map, a second scan selects nothing |
| Scanning.ScanExampleCounted | src/downloader.rs:240-252 | "42 A - B.osz" counts as set 42 when non-empty and not when empty |
| Scanning.ScanExamplePart | src/downloader.rs:242 | "42.osz.part" is not counted |
| Scanning.ScanExampleNoId | src/downloader.rs:249-251 | "x 42.osz" is not counted |
| Orchestration.ScheduleReports | src/downloader.rs:296-322 | the missing maps are attempted in order, one report each naming its map, until a download stalls; without a stall every map is reported |
| Orchestration.ScheduleCounts | src/downloader.rs:296-322 | over a run, Catboy's download count rises by exactly the number of successful downloads; Nerinyan's never moves |
| Orchestration.RunUpToDate | src/downloader.rs:255-267 | a run is "up to date" exactly when the directory was read and every map's set is on disk |
| Orchestration.RunSetupFails | src/downloader.rs:274-277 | only Catboy's first ratelimits query yields `SetupFailed`, and only when that query fails; conversely a failed query fails every Catboy run that has maps to fetch |
| Orchestration.ReportedAreMissing | src/downloader.rs:255-258 | every reported map is one of the maps given, and its set was not on disk |
| Orchestration.RunReports | src/downloader.rs:231-329 | a run that downloads reports the missing maps in order, only maps not on disk, and at most the last report is a stall; without a stall every missing map is reported |
| Orchestration.RunSkipsSaved | src/downloader.rs:240-258 | a set whose non-empty archive is already on disk is never downloaded again |
| Orchestration.DownloadBeatmaps | src/downloader.rs:231-329 | the run returns exactly what `Run` specifies for the chosen mirror and the scanned directory |

## Left out

- Network I/O is replaced by inputs: the reply script per download, the ratelimits reply, and a flag saying whether the body was saved. That covers HTTP, timeouts, the ratelimits GET with its JSON decode, and streaming the body to disk (`src/downloader.rs:138-140, 200, 218-223`).
- Client construction (`src/downloader.rs:269-272`) is not modelled; the model cannot fail there.
- Console and progress-bar output is logging only and is left out, including the banner that uses `Mirrors.Name`.
- Concurrency is left out: the `Mutex` and the `buffer_unordered` fan-out of up to three Nerinyan downloads.
  - Downloads run one after the other, in order, sharing one limiter.
  - This is the source's schedule exactly for Catboy, whose concurrency is 1.
  - For Nerinyan this is not the source's schedule: the source overlaps up to three downloads, so their waits, requests and back-offs interleave; the model runs each download to completion before starting the next.
- Jitter: `rand::random::<u64>() % 500` is an input sequence of random numbers. The jitter moves the clock forward before each download starts, so the limiter sees the later time.
- Real time: `Instant::now()` and `tokio::time::sleep` become an integer-millisecond clock. The clock advances only by the limiter's sleeps, the back-offs and the jitter, so request and transfer times count as zero. Overflow on an absurd header value is not modelled: for a reset or retry-after of 18446744073709551615, `secs + 1` on a `u64` (`src/downloader.rs:130`) panics in a debug build and wraps to 0 in a release build, so `reset_at` becomes `now`, while the model sets `now` plus 2^64 s. A panic from `Instant` overflow is not modelled either.
- Orchestration.DownloadBeatmaps: A limiter left with no unit and a cap of zero makes the source's `wait` loop forever. The model reports that download as `Stalled` and starts nothing after it, rather than not terminating.
- Downloading.FetchFeedsHeaders: states what the headers of the last reply leave in the limiter. The headers of an earlier 429 are applied too, but no lemma states their effect on its own, because the next `wait` changes the state again before any later reply.
- Downloading.DownloadBeatmap: requires a script of at least six replies, one for every request the loop may send. Replies the loop never reaches are ignored.
- Header names are the keys of a map, already lower-cased. The case-insensitive lookup of `HeaderMap` and the `to_str` failure on a non-visible-ASCII value are not modelled; that failure behaves like an absent header.
- StdText.Lowercase: lower-cases ASCII letters only. Rust's `to_lowercase` also maps other letters, but none of them lower-cases to a letter of "true" or "yes", so the mirror chosen is the same.
- Scanning.EntryId: the extension test follows `Path::extension` on the file name as text. A name that is not valid Unicode is given as a flag, and its extension is taken from its text too.
- A short but non-empty archive left by an interrupted write counts as downloaded on the next scan. The model reproduces this, as the source does, and does not correct it.
- RateLimiting.RateLimiter.OnDownloadComplete: the download count is unbounded. The source's `u32` would overflow only after 2^32 downloads.
- `src/fetcher.rs` and `src/main.rs` are not part of this model: they are the osu! API client, JSON persistence and the command line.

=== FILE: download.dfy ===
/** The per-beatmap retry loop (src/downloader.rs, `download_beatmap`).
    The network is a script: the reply to the k-th request of the loop is
    `replies[k]`. */
module Downloading {
  import opened StdText
  import opened Mirrors
  import opened RateLimiting

  /** What one `client.get(&url).send()` produced: a transport error, or a
      response with its status, its headers (keyed by lower-case name) and,
      for a 2xx response, whether creating the file and streaming the body
      into it succeeded. */
  datatype Reply =
    | SendFailed
    | Answered(status: nat, headers: map<string, string>, bodySaved: bool)

  datatype DownloadError =
    | Transport                 // `send()` failed; propagated by `?`
    | TooManyRateLimits         // "Hit rate limit too many times"
    | HttpStatus(status: nat)   // "Failed: HTTP {status}"
    | WriteFailed               // creating the file, receiving a chunk of the body or writing it failed

  /** `Stalled`: the limiter's `wait` would never return. */
  datatype Outcome = Downloaded | Failed(error: DownloadError) | Stalled

  /** The outcome, the number of requests sent, the limiter's sleeps (ms),
      the rate-limit back-offs (s), the time at the end and the limiter's
      final state. */
  datatype FetchRun = FetchRun(
    outcome: Outcome,
    requests: nat,
    waits: seq<nat>,
    backoffs: seq<nat>,
    end: int,
    after: QuotaState)

  const MaxRetries: nat := 5
  const TooManyRequests: nat := 429
  const DefaultRetryAfterSecs: nat := 10

  /** The back-off after a 429: `retry-after` seconds, 10 when absent or
      unparsable. */
  function RetryAfterSecs(h: map<string, string>): nat {
    HeaderU64(h, "retry-after").GetOr(DefaultRetryAfterSecs)
  }

  predicate IsRateLimited(r: Reply) {
    r.Answered? && r.status == TooManyRequests
  }

  /** The outcome the reply to the last request leads to, when it is the
      last: a 429 there means the retries are used up. */
  function Verdict(last: Reply): Outcome {
    match last
    case SendFailed => Failed(Transport)
    case Answered(status, _, saved) =>
      if status == TooManyRequests then Failed(TooManyRateLimits)
      else if !IsSuccess(status) then Failed(HttpStatus(status))
      else if !saved then Failed(WriteFailed)
      else Downloaded
  }

  /** The variables of the loop at the top of an iteration: the limiter's
      state, the clock, the retry count and what has been waited so far. */
  datatype Loop = Loop(q: QuotaState, t: int, retry: nat, waits: seq<nat>, backoffs: seq<nat>)

  /** The loop from the iteration whose variables are `s`: wait for the
      limiter, then make the attempt. */
  function Fetch(m: Mirror, s: Loop, replies: seq<Reply>, refresh: RatelimitsReply): FetchRun
    requires s.retry <= MaxRetries < |replies|
    decreases MaxRetries - s.retry, 1
  {
    Attempt(m, s, Acquire(s.q, s.t), replies, refresh)
  }

  /** The attempt after the limiter's wait `w`: send, feed the headers of a
      response back, then back off and go round again on 429 while retries
      remain; otherwise the reply decides the outcome, and a saved download
      is reported to the limiter. */
  function Attempt(m: Mirror, s: Loop, w: WaitRun, replies: seq<Reply>, refresh: RatelimitsReply): FetchRun
    requires s.retry <= MaxRetries < |replies|
    decreases MaxRetries - s.retry, 0
  {
    var waits := s.waits + w.sleeps;
    if !w.granted then FetchRun(Stalled, s.retry, waits, s.backoffs, w.at, w.after)
    else
      var reply := replies[s.retry];
      var q1 := if reply.SendFailed? then w.after else ApplyHeaders(m, w.after, reply.headers, w.at);
      if IsRateLimited(reply) && s.retry < MaxRetries then
        var secs := RetryAfterSecs(reply.headers);
        Fetch(m, Loop(q1, w.at + secs * 1000, s.retry + 1, waits, s.backoffs + [secs]), replies, refresh)
      else
        var outcome := Verdict(reply);
        FetchRun(outcome, s.retry + 1, waits, s.backoffs, w.at,
                 if outcome == Downloaded then Complete(m, q1, refresh, w.at).1 else q1)
  }

  /** `download_beatmap` from limiter state `q` at time `now`. */
  function Download(m: Mirror, q: QuotaState, now: int, replies: seq<Reply>, refresh: RatelimitsReply): FetchRun
    requires MaxRetries < |replies|
  {
    Fetch(m, Loop(q, now, 0, [], []), replies, refresh)
  }

  /** At most six requests are sent; every request but the last is
      followed by one back-off, and a stall sends nothing more. */
  lemma {:induction false} FetchBounds(m: Mirror, s: Loop, replies: seq<Reply>, refresh: RatelimitsReply)
    requires s.retry <= MaxRetries < |replies|
    ensures var r := Fetch(m, s, replies, refresh);
      && s.retry <= r.requests <= MaxRetries + 1
      && (r.outcome != Stalled ==> r.requests > s.retry)
      && |r.backoffs| == |s.backoffs| + (if r.outcome.Stalled? then r.requests - s.retry else r.requests - s.retry - 1)
    decreases MaxRetries - s.retry
  {
    var w := Acquire(s.q, s.t);
    if w.granted {
      var reply := replies[s.retry];
      if IsRateLimited(reply) && s.retry < MaxRetries {
        var q1 := ApplyHeaders(m, w.after, reply.headers, w.at);
        var secs := RetryAfterSecs(reply.headers);
        FetchBounds(m, Loop(q1, w.at + secs * 1000, s.retry + 1, s.waits + w.sleeps, s.backoffs + [secs]), replies, refresh);
      }
    }
  }

  /** The `k`-th back-off follows a 429 as the reply to the `k`-th request
      and lasts that reply's `retry-after` seconds. */
  predicate BackoffsFollow(replies: seq<Reply>, b: seq<nat>) {
    && |b| <= |replies|
    && forall k :: 0 <= k < |b| ==> IsRateLimited(replies[k]) && b[k] == RetryAfterSecs(replies[k].headers)
  }

  lemma BackoffsFollowSnoc(replies: seq<Reply>, b: seq<nat>)
    requires BackoffsFollow(replies, b) && |b| < |replies| && IsRateLimited(replies[|b|])
    ensures BackoffsFollow(replies, b + [RetryAfterSecs(replies[|b|].headers)])
  {
  }

  /** Every back-off follows a 429 reply and lasts that reply's
      `retry-after` seconds (10 by default). */
  lemma {:induction false} FetchBackoffs(m: Mirror, s: Loop, replies: seq<Reply>, refresh: RatelimitsReply)
    requires s.retry <= MaxRetries < |replies|
    requires |s.backoffs| == s.retry && BackoffsFollow(replies, s.backoffs)
    ensures BackoffsFollow(replies, Fetch(m, s, replies, refresh).backoffs)
    decreases MaxRetries - s.retry
  {
    var w := Acquire(s.q, s.t);
    if w.granted {
      var reply := replies[s.retry];
      if IsRateLimited(reply) && s.retry < MaxRetries {
        var q1 := ApplyHeaders(m, w.after, reply.headers, w.at);
        var secs := RetryAfterSecs(reply.headers);
        BackoffsFollowSnoc(replies, s.backoffs);
        FetchBackoffs(m, Loop(q1, w.at + secs * 1000, s.retry + 1, s.waits + w.sleeps, s.backoffs + [secs]), replies, refresh);
      }
    }
  }

  /** Unless the limiter stalls, the reply to the last request sent decides
      the outcome, and a 429 is the last reply only on the sixth request. */
  lemma {:induction false} FetchVerdict(m: Mirror, s: Loop, replies: seq<Reply>, refresh: RatelimitsReply)
    requires s.retry <= MaxRetries < |replies|
    ensures var r := Fetch(m, s, replies, refresh);
      r.outcome != Stalled ==>
        && s.retry < r.requests <= MaxRetries + 1
        && r.outcome == Verdict(replies[r.requests - 1])
        && (IsRateLimited(replies[r.requests - 1]) ==> r.requests == MaxRetries + 1)
    decreases MaxRetries - s.retry
  {
    var w := Acquire(s.q, s.t);
    if w.granted {
      var reply := replies[s.retry];
      if IsRateLimited(reply) && s.retry < MaxRetries {
        var q1 := ApplyHeaders(m, w.after, reply.headers, w.at);
        var secs := RetryAfterSecs(reply.headers);
        var next := Loop(q1, w.at + secs * 1000, s.retry + 1, s.waits + w.sleeps, s.backoffs + [secs]);
        assert Fetch(m, s, replies, refresh) == Fetch(m, next, replies, refresh);
        FetchVerdict(m, next, replies, refresh);
      } else {
        var r := Fetch(m, s, replies, refresh);
        assert r == Attempt(m, s, w, replies, refresh);
        assert r.requests == s.retry + 1 && r.outcome == Verdict(reply);
      }
    }
  }

  /** The reply to the last request decides the outcome: a transport error,
      a non-success status other than 429, a 2xx whose body could not be
      saved, a 2xx that was saved, or a 429 as the sixth request. */
  lemma DownloadLastReply(m: Mirror, q: QuotaState, now: int, replies: seq<Reply>, refresh: RatelimitsReply)
    requires MaxRetries < |replies|
    ensures var r := Download(m, q, now, replies, refresh);
      r.outcome != Stalled ==>
        && 0 < r.requests <= MaxRetries + 1
        && var last := replies[r.requests - 1];
        && (r.outcome == Failed(Transport) <==> last.SendFailed?)
        && (r.outcome == Failed(TooManyRateLimits) <==> r.requests == MaxRetries + 1 && IsRateLimited(last))
        && (r.outcome.Failed? && r.outcome.error.HttpStatus? <==>
              last.Answered? && last.status != TooManyRequests && !IsSuccess(last.status))
        && (r.outcome.Failed? && r.outcome.error.HttpStatus? ==> r.outcome.error.status == last.status)
        && (r.outcome == Failed(WriteFailed) <==> last.Answered? && IsSuccess(last.status) && !last.bodySaved)
        && (r.outcome == Downloaded <==> last.Answered? && IsSuccess(last.status) && last.bodySaved)
  {
    FetchVerdict(m, Loop(q, now, 0, [], []), replies, refresh);
  }

  /** Every request but the last is answered by a 429 and followed by a
      back-off of its `retry-after` seconds; a stall happens before the
      request it would have sent. */
  lemma DownloadBackoffs(m: Mirror, q: QuotaState, now: int, replies: seq<Reply>, refresh: RatelimitsReply)
    requires MaxRetries < |replies|
    ensures var r := Download(m, q, now, replies, refresh);
      && r.requests <= MaxRetries + 1
      && |r.backoffs| == (if r.outcome.Stalled? then r.requests else r.requests - 1)
      && forall k :: 0 <= k < |r.backoffs| ==>
           IsRateLimited(replies[k]) && r.backoffs[k] == RetryAfterSecs(replies[k].headers)
  {
    FetchBounds(m, Loop(q, now, 0, [], []), replies, refresh);
    FetchBackoffs(m, Loop(q, now, 0, [], []), replies, refresh);
  }

  /** The only change to the download count comes from the completion of a
      successful download, and only for Catboy: exactly one more. */
  lemma {:induction false} FetchCountsOnce(m: Mirror, s: Loop, replies: seq<Reply>, refresh: RatelimitsReply)
    requires s.retry <= MaxRetries < |replies|
    ensures var r := Fetch(m, s, replies, refresh);
      r.after.downloadCount == s.q.downloadCount + (if r.outcome == Downloaded && m == Catboy then 1 else 0)
    decreases MaxRetries - s.retry
  {
    var w := Acquire(s.q, s.t);
    assert w.after.downloadCount == s.q.downloadCount;
    if w.granted {
      var reply := replies[s.retry];
      var q1 := if reply.SendFailed? then w.after else ApplyHeaders(m, w.after, reply.headers, w.at);
      assert q1.downloadCount == s.q.downloadCount;
      if IsRateLimited(reply) && s.retry < MaxRetries {
        var secs := RetryAfterSecs(reply.headers);
        FetchCountsOnce(m, Loop(q1, w.at + secs * 1000, s.retry + 1, s.waits + w.sleeps, s.backoffs + [secs]), replies, refresh);
      } else if Verdict(reply) == Downloaded {
        CompleteSpec(m, q1, refresh, w.at);
      }
    }
  }

  /** With Catboy and a positive cap the limiter can never starve (its
      headers are ignored and only a refresh could change the cap, which
      happens after the last request), so the loop always ends with a
      download or an error. */
  lemma {:induction false} CatboyNeverStalls(s: Loop, replies: seq<Reply>, refresh: RatelimitsReply)
    requires s.retry <= MaxRetries < |replies|
    requires s.q.limitCap > 0
    ensures Fetch(Catboy, s, replies, refresh).outcome != Stalled
    decreases MaxRetries - s.retry
  {
    var w := Acquire(s.q, s.t);
    assert w.granted && w.after.limitCap == s.q.limitCap;
    var reply := replies[s.retry];
    if IsRateLimited(reply) && s.retry < MaxRetries {
      assert ApplyHeaders(Catboy, w.after, reply.headers, w.at) == w.after;
      var secs := RetryAfterSecs(reply.headers);
      CatboyNeverStalls(Loop(w.after, w.at + secs * 1000, s.retry + 1, s.waits + w.sleeps, s.backoffs + [secs]), replies, refresh);
    }
  }

  /** Every request is preceded by one `wait`, and with Catboy (whose
      headers are ignored) each takes one unit: starting with enough units
      for every request left, the loop ends with one unit less per request
      sent, unless a successful download just reached a multiple of 50 and
      so refreshed the quota. */
  lemma {:induction false} FetchConsumes(s: Loop, replies: seq<Reply>, refresh: RatelimitsReply)
    requires s.retry <= MaxRetries < |replies|
    requires s.q.remaining >= MaxRetries + 1 - s.retry
    ensures var r := Fetch(Catboy, s, replies, refresh);
      && r.outcome != Stalled && r.waits == s.waits
      && (r.outcome != Downloaded || (s.q.downloadCount + 1) % RefreshEvery != 0 ==>
            r.after.remaining == s.q.remaining - (r.requests - s.retry)
            && r.after.limitCap == s.q.limitCap && r.after.resetAt == s.q.resetAt)
    decreases MaxRetries - s.retry
  {
    var w := Acquire(s.q, s.t);
    assert w == WaitRun(true, s.t, [], s.q.(remaining := s.q.remaining - 1));
    assert s.waits + w.sleeps == s.waits;
    var reply := replies[s.retry];
    if IsRateLimited(reply) && s.retry < MaxRetries {
      assert ApplyHeaders(Catboy, w.after, reply.headers, w.at) == w.after;
      var secs := RetryAfterSecs(reply.headers);
      FetchConsumes(Loop(w.after, w.at + secs * 1000, s.retry + 1, s.waits, s.backoffs + [secs]), replies, refresh);
    }
  }

  /** With Nerinyan the headers of the reply to the last request reach the
      limiter: each quota field that reply reports is what the loop leaves,
      the reset being counted from the time that request was sent. */
  lemma {:induction false} FetchFeedsHeaders(s: Loop, replies: seq<Reply>, refresh: RatelimitsReply)
    requires s.retry <= MaxRetries < |replies|
    ensures var r := Fetch(Nerinyan, s, replies, refresh);
      r.outcome != Stalled && 0 < r.requests <= |replies| && replies[r.requests - 1].Answered? ==>
        var h := replies[r.requests - 1].headers;
        && (HeaderU32(h, "x-ratelimit-remaining-minute").Some? ==>
              r.after.remaining == HeaderU32(h, "x-ratelimit-remaining-minute").value)
        && (HeaderU32(h, "x-ratelimit-limit-minute").Some? ==>
              r.after.limitCap == HeaderU32(h, "x-ratelimit-limit-minute").value)
        && (ResetSecs(h).Some? ==> r.after.resetAt == r.end + (ResetSecs(h).value + 1) * 1000)
    decreases MaxRetries - s.retry
  {
    var w := Acquire(s.q, s.t);
    if w.granted {
      var reply := replies[s.retry];
      if IsRateLimited(reply) && s.retry < MaxRetries {
        var q1 := ApplyHeaders(Nerinyan, w.after, reply.headers, w.at);
        var secs := RetryAfterSecs(reply.headers);
        FetchFeedsHeaders(Loop(q1, w.at + secs * 1000, s.retry + 1, s.waits + w.sleeps, s.backoffs + [secs]), replies, refresh);
      } else {
        var r := Fetch(Nerinyan, s, replies, refresh);
        assert r.requests == s.retry + 1 && r.end == w.at;
        if reply.Answered? {
          assert r.after == ApplyHeaders(Nerinyan, w.after, reply.headers, w.at);
        }
      }
    }
  }

  /** A Catboy download that brings the count to a multiple of 50 reports
      itself to the limiter, which refreshes: after a 2xx ratelimits reply
      whose body holds two `u32`s, the quota is that body's and its window
      starts when the download completed. */
  lemma {:induction false} FetchRefreshesAt50(s: Loop, replies: seq<Reply>, refresh: RatelimitsReply)
    requires s.retry <= MaxRetries < |replies|
    requires (s.q.downloadCount + 1) % RefreshEvery == 0
    requires refresh.RatelimitsAnswered? && IsSuccess(refresh.status) && refresh.body.Some?
    requires IsU32(refresh.body.value.remainingDownload) && IsU32(refresh.body.value.typesDownload)
    ensures var r := Fetch(Catboy, s, replies, refresh);
      r.outcome == Downloaded ==>
        r.after == QuotaState(refresh.body.value.remainingDownload, r.end + WindowMs,
                              refresh.body.value.typesDownload, s.q.downloadCount + 1)
    decreases MaxRetries - s.retry
  {
    var w := Acquire(s.q, s.t);
    assert w.after.downloadCount == s.q.downloadCount;
    if w.granted {
      var reply := replies[s.retry];
      if IsRateLimited(reply) && s.retry < MaxRetries {
        assert ApplyHeaders(Catboy, w.after, reply.headers, w.at) == w.after;
        var secs := RetryAfterSecs(reply.headers);
        FetchRefreshesAt50(Loop(w.after, w.at + secs * 1000, s.retry + 1, s.waits + w.sleeps, s.backoffs + [secs]), replies, refresh);
      }
    }
  }

  /** The clock moves by exactly the limiter's sleeps and the back-offs:
      what it reads at the end, less every sleep and back-off taken, is what
      it read when the iteration `s` began, less those taken before. */
  lemma {:induction false} FetchTiming(m: Mirror, s: Loop, replies: seq<Reply>, refresh: RatelimitsReply)
    requires s.retry <= MaxRetries < |replies|
    ensures var r := Fetch(m, s, replies, refresh);
      r.end - Sum(r.waits) - 1000 * Sum(r.backoffs) == s.t - Sum(s.waits) - 1000 * Sum(s.backoffs)
    decreases MaxRetries - s.retry
  {
    var w := Acquire(s.q, s.t);
    AcquireTiming(s.q, s.t);
    SumAppend(s.waits, w.sleeps);
    if w.granted {
      var reply := replies[s.retry];
      if IsRateLimited(reply) && s.retry < MaxRetries {
        var q1 := ApplyHeaders(m, w.after, reply.headers, w.at);
        var secs := RetryAfterSecs(reply.headers);
        SumAppend(s.backoffs, [secs]);
        assert Sum([secs]) == secs;
        FetchTiming(m, Loop(q1, w.at + secs * 1000, s.retry + 1, s.waits + w.sleeps, s.backoffs + [secs]), replies, refresh);
      }
    }
  }

  /** A download ends at its start time plus all the limiter's sleeps plus
      all the back-offs, never before it started. */
  lemma DownloadTiming(m: Mirror, q: QuotaState, now: int, replies: seq<Reply>, refresh: RatelimitsReply)
    requires MaxRetries < |replies|
    ensures var r := Download(m, q, now, replies, refresh);
      r.end == now + Sum(r.waits) + 1000 * Sum(r.backoffs) && r.end >= now
  {
    FetchTiming(m, Loop(q, now, 0, [], []), replies, refresh);
  }

  /** Six consecutive 429 replies give "Hit rate limit too many times" after
      exactly six requests, unless the limiter stalls first. */
  lemma SixRateLimitsFail(m: Mirror, q: QuotaState, now: int, replies: seq<Reply>, refresh: RatelimitsReply)
    requires MaxRetries < |replies|
    requires forall i :: 0 <= i <= MaxRetries ==> IsRateLimited(replies[i])
    ensures var r := Download(m, q, now, replies, refresh);
      r.outcome != Stalled ==> r.outcome == Failed(TooManyRateLimits) && r.requests == MaxRetries + 1
  {
    FetchVerdict(m, Loop(q, now, 0, [], []), replies, refresh);
  }

  /** Worked example: a 429 with `retry-after: 1`, then a 200 whose body is
      saved: the beatmap is downloaded after two requests and one back-off
      of one second. */
  lemma RetryThenSucceed(q: QuotaState, now: int, rest: seq<Reply>, refresh: RatelimitsReply)
    requires q.remaining >= 2
    requires |rest| >= MaxRetries - 1
    ensures var replies := [Answered(429, map["retry-after" := "1"], false), Answered(200, map[], true)] + rest;
      var r := Download(Catboy, q, now, replies, refresh);
      r.outcome == Downloaded && r.requests == 2 && r.backoffs == [1] && r.waits == []
  {
    var replies := [Answered(429, map["retry-after" := "1"], false), Answered(200, map[], true)] + rest;
    assert DecimalString(1) == "1";
    ParseDecimal(1, U64Limit);
    assert RetryAfterSecs(map["retry-after" := "1"]) == 1;
    assert replies[0] == Answered(429, map["retry-after" := "1"], false);
    assert replies[1] == Answered(200, map[], true);
    var s0 := Loop(q, now, 0, [], []);
    var w0 := Acquire(q, now);
    assert w0 == WaitRun(true, now, [], q.(remaining := q.remaining - 1));
    assert ApplyHeaders(Catboy, w0.after, replies[0].headers, now) == w0.after;
    assert [] + w0.sleeps == [] && [] + [1] == [1];
    var s1 := Loop(w0.after, now + 1000, 1, [], [1]);
    assert Download(Catboy, q, now, replies, refresh) == Attempt(Catboy, s0, w0, replies, refresh);
    assert Attempt(Catboy, s0, w0, replies, refresh) == Fetch(Catboy, s1, replies, refresh);
    var w1 := Acquire(s1.q, s1.t);
    assert w1.granted && w1.sleeps == [];
    assert Fetch(Catboy, s1, replies, refresh) == Attempt(Catboy, s1, w1, replies, refresh);
  }

  /** Worked example: a 404 fails the beatmap with `HttpStatus(404)` after
      one request. */
  lemma NotFoundFails(m: Mirror, q: QuotaState, now: int, h: map<string, string>,
                      rest: seq<Reply>, refresh: RatelimitsReply)
    requires q.remaining > 0
    requires |rest| >= MaxRetries
    ensures var r := Download(m, q, now, [Answered(404, h, false)] + rest, refresh);
      r.outcome == Failed(HttpStatus(404)) && r.requests == 1 && r.backoffs == []
  {
    var replies := [Answered(404, h, false)] + rest;
    assert replies[0] == Answered(404, h, false);
    var w := Acquire(q, now);
    assert Download(m, q, now, replies, refresh) == Attempt(m, Loop(q, now, 0, [], []), w, replies, refresh);
  }

  /** `download_beatmap`'s loop over the shared limiter. */
  method DownloadBeatmap(limiter: RateLimiter, replies: seq<Reply>, refresh: RatelimitsReply, now: int)
    returns (outcome: Outcome, requests: nat, waits: seq<nat>, backoffs: seq<nat>, end: int)
    requires MaxRetries < |replies|
    modifies limiter
    ensures FetchRun(outcome, requests, waits, backoffs, end, limiter.State())
         == Download(limiter.mirror, old(limiter.State()), now, replies, refresh)
  {
    ghost var m := limiter.mirror;
    ghost var spec := Download(m, limiter.State(), now, replies, refresh);
    var retryCount: nat := 0;
    var t := now;
    waits, backoffs := [], [];
    while true
      invariant retryCount <= MaxRetries
      invariant spec == Fetch(m, Loop(limiter.State(), t, retryCount, waits, backoffs), replies, refresh)
      decreases MaxRetries - retryCount
    {
      ghost var w := Acquire(limiter.State(), t);
      var granted, at, sleeps := limiter.Wait(t);
      assert w == WaitRun(granted, at, sleeps, limiter.State());
      waits, t := waits + sleeps, at;
      if !granted {
        return Stalled, retryCount, waits, backoffs, t;
      }
      match replies[retryCount]
      case SendFailed =>
        return Failed(Transport), retryCount + 1, waits, backoffs, t;
      case Answered(status, headers, saved) =>
        limiter.UpdateFromHeaders(headers, t);
        if status == TooManyRequests {
          if retryCount >= MaxRetries {
            return Failed(TooManyRateLimits), retryCount + 1, waits, backoffs, t;
          }
          var secs := RetryAfterSecs(headers);
          backoffs := backoffs + [secs];
          t := t + secs * 1000;
          retryCount := retryCount + 1;
          continue;
        }
        if !IsSuccess(status) {
          return Failed(HttpStatus(status)), retryCount + 1, waits, backoffs, t;
        }
        if !saved {
          return Failed(WriteFailed), retryCount + 1, waits, backoffs, t;
        }
        var _ := limiter.OnDownloadComplete(refresh, t);
        return Downloaded, retryCount + 1, waits, backoffs, t;
    }
  }
}

=== FILE: mirror.dfy ===
/** The two download mirrors and the per-mirror configuration
    (src/downloader.rs, `Mirror`). */
module Mirrors {
  import opened Wrappers
  import opened StdText

  /** Nerinyan reports its quota in response headers; Catboy exposes a
      separate ratelimits endpoint that has to be polled. */
  datatype Mirror = Nerinyan | Catboy

  /** `Mirror::from_env` given the value of `USE_ALTERNATIVE_MIRROR`
      (`None` when the variable is unset or not valid Unicode, which
      `unwrap_or_default` turns into the empty string). */
  function FromEnv(value: Option<string>): Mirror {
    var v := Lowercase(value.GetOr(""));
    if v == "true" || v == "yes" || v == "1" then Catboy else Nerinyan
  }

  function UrlPrefix(m: Mirror): string {
    match m
    case Nerinyan => "https://api.nerinyan.moe/d/"
    case Catboy => "https://catboy.best/d/"
  }

  /** `Mirror::download_url`: the mirror's prefix followed by the decimal set id. */
  function DownloadUrl(m: Mirror, beatmapsetId: U32): string {
    UrlPrefix(m) + DecimalString(beatmapsetId)
  }

  /** `Mirror::name`, shown in the banner. */
  function Name(m: Mirror): (n: string)
    ensures |n| > 0
  {
    match m
    case Nerinyan => "Nerinyan"
    case Catboy => "Catboy"
  }

  /** The `max_concurrent` table: Catboy downloads are serialized, Nerinyan
      runs up to three at once. */
  function MaxConcurrent(m: Mirror): (n: nat)
    ensures n >= 1
    ensures n == 1 <==> m == Catboy
    ensures m == Nerinyan ==> n == 3
  {
    match m
    case Catboy => 1
    case Nerinyan => 3
  }

  predicate IsLetter(c: char, lower: char) {
    c == lower || c as int == lower as int - 32
  }

  /** Catboy is chosen exactly for the case-insensitive spellings of "true"
      and "yes" and for "1"; everything else, an unset variable included,
      selects Nerinyan. */
  lemma FromEnvTruthy(v: string)
    ensures FromEnv(Some(v)) == Catboy <==>
      || (|v| == 4 && IsLetter(v[0], 't') && IsLetter(v[1], 'r') && IsLetter(v[2], 'u') && IsLetter(v[3], 'e'))
      || (|v| == 3 && IsLetter(v[0], 'y') && IsLetter(v[1], 'e') && IsLetter(v[2], 's'))
      || v == "1"
    ensures FromEnv(None) == Nerinyan && FromEnv(Some("")) == Nerinyan
  {
    var l := Lowercase(v);
    if |v| == 4 {
      assert l == "true" <==> (l[0] == 't' && l[1] == 'r' && l[2] == 'u' && l[3] == 'e');
    } else if |v| == 3 {
      assert l == "yes" <==> (l[0] == 'y' && l[1] == 'e' && l[2] == 's');
    } else if |v| == 1 {
      assert l == "1" <==> l[0] == '1';
      assert v == "1" <==> v[0] == '1';
    }
    assert Lowercase("") == "";
  }

  /** The download URL is the mirror's prefix followed by text that parses
      back to the set id, so distinct sets or mirrors never share a URL. */
  lemma DownloadUrlRoundTrip(m: Mirror, id: U32)
    ensures var url := DownloadUrl(m, id);
      && url[..|UrlPrefix(m)|] == UrlPrefix(m)
      && ParseU32(url[|UrlPrefix(m)|..]) == Some(id as nat)
  {
    var url := DownloadUrl(m, id);
    assert url[|UrlPrefix(m)|..] == DecimalString(id);
    ParseDecimal(id, U32Limit);
  }

  lemma DownloadUrlInjective(m: Mirror, a: U32, m': Mirror, b: U32)
    requires DownloadUrl(m, a) == DownloadUrl(m', b)
    ensures m == m' && a == b
  {
    var url := DownloadUrl(m, a);
    assert url[8] == UrlPrefix(m)[8];
    assert url[8] == UrlPrefix(m')[8];
    assert m == m';
    DownloadUrlRoundTrip(m, a);
    DownloadUrlRoundTrip(m, b);
  }
}

=== FILE: orchestrator.dfy ===
/** `download_beatmaps` (src/downloader.rs): pick the mirror, scan the
    output directory, select the missing maps, set up the shared limiter and
    download the missing maps one after the other. */
module Orchestration {
  import opened Wrappers
  import opened BeatmapTypes
  import opened Mirrors
  import opened RateLimiting
  import opened Downloading
  import opened Scanning

  /** Each download starts after a random delay below 500 ms. */
  const JitterMs: nat := 500

  /** What the outside world answers during a run, per missing map in
      order: the replies to its requests, the reply the limiter's refresh
      would get on its completion, and the random `u64` drawn for its delay. */
  datatype World = World(scripts: seq<seq<Reply>>, refreshes: seq<RatelimitsReply>, randoms: seq<nat>)

  /** `w` has answers for the first `n` downloads. */
  predicate Covers(w: World, n: nat) {
    && n <= |w.scripts| && n <= |w.refreshes| && n <= |w.randoms|
    && forall k :: 0 <= k < n ==> MaxRetries < |w.scripts[k]|
  }

  /** How the download of one map ended. */
  datatype Report = Report(beatmap: BeatmapInfo, outcome: Outcome)

  /** How a run ends: creating or listing the output directory failed,
      Catboy's first ratelimits query failed, nothing was missing ("All maps
      up to date!"), or the missing maps were attempted. */
  datatype RunResult = DirectoryFailed | SetupFailed | UpToDate | Ran(reports: seq<Report>)

  /** The downloads from the `k`-th missing map on, with limiter state `q` at
      time `t`, `acc` reporting the maps before. A download whose limiter
      stalls never returns, so nothing after it starts. */
  function Schedule(m: Mirror, q: QuotaState, t: int, ms: seq<BeatmapInfo>, w: World,
                    k: nat, acc: seq<Report>): (seq<Report>, QuotaState)
    requires k <= |ms| && Covers(w, |ms|)
    decreases |ms| - k
  {
    if k == |ms| then (acc, q)
    else
      var r := Download(m, q, t + w.randoms[k] % JitterMs, w.scripts[k], w.refreshes[k]);
      var acc' := acc + [Report(ms[k], r.outcome)];
      if r.outcome == Stalled then (acc', r.after)
      else Schedule(m, r.after, r.end, ms, w, k + 1, acc')
  }

  /** The ids found on disk, or `None` when the output directory cannot be
      created or listed. */
  function Scan(listing: Option<seq<DirItem>>): Option<set<nat>> {
    match listing
    case None => None
    case Some(items) => Some(ExistingIds(items))
  }

  /** The run with mirror `m` after the scan found `existing`, given the
      beatmaps to fetch, the reply to Catboy's first ratelimits query and
      the rest of the world. */
  function Run(m: Mirror, existing: Option<set<nat>>, maps: seq<BeatmapInfo>,
               setup: RatelimitsReply, w: World, now: int): RunResult
    requires Covers(w, |maps|)
  {
    match existing
    case None => DirectoryFailed
    case Some(ids) =>
      var missing := MissingMaps(maps, ids);
      if missing == [] then UpToDate
      else
        var (ok, q) := if m == Catboy then Refresh(m, InitialQuota(now), setup, now) else (true, InitialQuota(now));
        if !ok then SetupFailed
        else Ran(Schedule(m, q, now, missing, w, 0, []).0)
  }

  /** The reports for maps `ms[..|reps|]`, one per map in order, none but
      the last stalled. */
  predicate ReportsFollow(ms: seq<BeatmapInfo>, reps: seq<Report>) {
    && |reps| <= |ms|
    && (forall j :: 0 <= j < |reps| ==> reps[j].beatmap == ms[j])
    && (forall j :: 0 <= j < |reps| - 1 ==> reps[j].outcome != Stalled)
  }

  /** The number of successful downloads among `reps`. */
  function Count(reps: seq<Report>): nat
    decreases |reps|
  {
    if reps == [] then 0
    else Count(reps[..|reps| - 1]) + (if reps[|reps| - 1].outcome == Downloaded then 1 else 0)
  }

  lemma CountSnoc(reps: seq<Report>, x: Report)
    ensures Count(reps + [x]) == Count(reps) + (if x.outcome == Downloaded then 1 else 0)
  {
    assert (reps + [x])[..|reps|] == reps;
  }

  lemma ReportsFollowSnoc(ms: seq<BeatmapInfo>, reps: seq<Report>, o: Outcome)
    requires ReportsFollow(ms, reps) && |reps| < |ms|
    requires reps == [] || reps[|reps| - 1].outcome != Stalled
    ensures ReportsFollow(ms, reps + [Report(ms[|reps|], o)])
  {
  }

  /** Every map is attempted in order, each report naming its map, until one
      download stalls; if none stalls, there is one report per map. */
  lemma {:induction false} ScheduleReports(m: Mirror, q: QuotaState, t: int, ms: seq<BeatmapInfo>, w: World,
                                           k: nat, acc: seq<Report>)
    requires k <= |ms| && Covers(w, |ms|)
    requires |acc| == k && ReportsFollow(ms, acc)
    requires acc == [] || acc[|acc| - 1].outcome != Stalled
    ensures var reps := Schedule(m, q, t, ms, w, k, acc).0;
      && ReportsFollow(ms, reps) && k <= |reps| && (k < |ms| ==> k < |reps|)
      && (|reps| < |ms| ==> 0 < |reps| && reps[|reps| - 1].outcome == Stalled)
    decreases |ms| - k
  {
    if k < |ms| {
      var r := Download(m, q, t + w.randoms[k] % JitterMs, w.scripts[k], w.refreshes[k]);
      var acc' := acc + [Report(ms[k], r.outcome)];
      ReportsFollowSnoc(ms, acc, r.outcome);
      if r.outcome == Stalled {
        assert Schedule(m, q, t, ms, w, k, acc).0 == acc';
      } else {
        assert Schedule(m, q, t, ms, w, k, acc) == Schedule(m, r.after, r.end, ms, w, k + 1, acc');
        ScheduleReports(m, r.after, r.end, ms, w, k + 1, acc');
      }
    }
  }

  /** For Catboy the limiter's download count goes up by exactly the number
      of successful downloads; Nerinyan never counts. */
  lemma {:induction false} ScheduleCounts(m: Mirror, q: QuotaState, t: int, ms: seq<BeatmapInfo>, w: World,
                                          k: nat, acc: seq<Report>)
    requires k <= |ms| && Covers(w, |ms|)
    ensures var (reps, after) := Schedule(m, q, t, ms, w, k, acc);
      after.downloadCount - q.downloadCount == (if m == Catboy then Count(reps) - Count(acc) else 0)
    decreases |ms| - k
  {
    if k < |ms| {
      var s := Loop(q, t + w.randoms[k] % JitterMs, 0, [], []);
      var r := Download(m, q, t + w.randoms[k] % JitterMs, w.scripts[k], w.refreshes[k]);
      FetchCountsOnce(m, s, w.scripts[k], w.refreshes[k]);
      var x := Report(ms[k], r.outcome);
      CountSnoc(acc, x);
      if r.outcome != Stalled {
        ScheduleCounts(m, r.after, r.end, ms, w, k + 1, acc + [x]);
      }
    }
  }

  /** A run reports "up to date" exactly when the directory could be read
      and every map's set is on disk already. */
  lemma RunUpToDate(m: Mirror, existing: Option<set<nat>>, maps: seq<BeatmapInfo>,
                    setup: RatelimitsReply, w: World, now: int)
    requires Covers(w, |maps|)
    ensures Run(m, existing, maps, setup, w, now) == UpToDate <==>
      existing.Some? && forall i :: 0 <= i < |maps| ==> maps[i].beatmapsetId in existing.value
  {
    if existing.Some? {
      MissingMapsEmpty(maps, existing.value);
    }
  }

  /** Only Catboy's first ratelimits query yields `SetupFailed`, and a
      failed query does fail a run that has maps to fetch. */
  lemma RunSetupFails(m: Mirror, existing: Option<set<nat>>, maps: seq<BeatmapInfo>,
                      setup: RatelimitsReply, w: World, now: int)
    requires Covers(w, |maps|)
    ensures Run(m, existing, maps, setup, w, now) == SetupFailed ==>
      m == Catboy && !Refresh(Catboy, InitialQuota(now), setup, now).0
    ensures m == Nerinyan ==> Run(m, existing, maps, setup, w, now) != SetupFailed
    ensures (existing.Some? && MissingMaps(maps, existing.value) != [] && m == Catboy
             && !Refresh(Catboy, InitialQuota(now), setup, now).0)
            ==> Run(m, existing, maps, setup, w, now) == SetupFailed
  {
  }

  /** Reports that follow the missing maps are about maps to fetch whose
      set was not found on disk. */
  lemma ReportedAreMissing(maps: seq<BeatmapInfo>, existing: set<nat>, reps: seq<Report>)
    requires ReportsFollow(MissingMaps(maps, existing), reps)
    ensures forall j :: 0 <= j < |reps| ==> reps[j].beatmap in maps && reps[j].beatmap.beatmapsetId !in existing
  {
    var missing := MissingMaps(maps, existing);
    assert forall j :: 0 <= j < |reps| ==> missing[j] in missing;
  }

  /** When the maps are attempted, the reports name the missing maps in
      their order; a map is reported only if it is one of the maps to fetch
      and its set was not found on disk, and at most the last report is a
      stall. Without a stall every missing map is reported. */
  lemma RunReports(m: Mirror, existing: Option<set<nat>>, maps: seq<BeatmapInfo>,
                   setup: RatelimitsReply, w: World, now: int)
    requires Covers(w, |maps|)
    ensures var r := Run(m, existing, maps, setup, w, now);
      r.Ran? ==>
        var missing := MissingMaps(maps, existing.value);
        && 0 < |r.reports| <= |missing|
        && ReportsFollow(missing, r.reports)
        && (forall j :: 0 <= j < |r.reports| ==>
              r.reports[j].beatmap in maps && r.reports[j].beatmap.beatmapsetId !in existing.value)
        && (|r.reports| < |missing| ==> r.reports[|r.reports| - 1].outcome == Stalled)
  {
    if existing.Some? && MissingMaps(maps, existing.value) != [] {
      var (ok, q) := if m == Catboy then Refresh(m, InitialQuota(now), setup, now) else (true, InitialQuota(now));
      if ok {
        ScheduleOfMissing(m, q, now, maps, existing.value, w);
      }
    }
  }

  /** `RunReports` for the schedule of a non-empty list of missing maps. */
  lemma ScheduleOfMissing(m: Mirror, q: QuotaState, now: int, maps: seq<BeatmapInfo>, ids: set<nat>, w: World)
    requires Covers(w, |maps|) && MissingMaps(maps, ids) != []
    ensures var missing := MissingMaps(maps, ids);
      var reps := Schedule(m, q, now, missing, w, 0, []).0;
      && 0 < |reps| <= |missing|
      && ReportsFollow(missing, reps)
      && (forall j :: 0 <= j < |reps| ==> reps[j].beatmap in maps && reps[j].beatmap.beatmapsetId !in ids)
      && (|reps| < |missing| ==> reps[|reps| - 1].outcome == Stalled)
  {
    var missing := MissingMaps(maps, ids);
    ScheduleReports(m, q, now, missing, w, 0, []);
    ReportedAreMissing(maps, ids, Schedule(m, q, now, missing, w, 0, []).0);
  }

  /** A set whose non-empty file is already on disk is never downloaded
      again. */
  lemma RunSkipsSaved(m: Mirror, items: seq<DirItem>, maps: seq<BeatmapInfo>,
                      setup: RatelimitsReply, w: World, now: int, b: BeatmapInfo, k: nat, size: nat)
    requires Covers(w, |maps|)
    requires k < |items| && size > 0 && items[k] == Entry(Filename(b), true, Some(size))
    ensures var r := Run(m, Scan(Some(items)), maps, setup, w, now);
      r.Ran? ==> forall j :: 0 <= j < |r.reports| ==> r.reports[j].beatmap.beatmapsetId != b.beatmapsetId
  {
    RunReports(m, Scan(Some(items)), maps, setup, w, now);
    FilenameRecognised(b, size);
  }

  /** `download_beatmaps`, sequentially: the downloads run one at a time, in
      order, sharing one limiter. */
  method DownloadBeatmaps(env: Option<string>, listing: Option<seq<DirItem>>, maps: seq<BeatmapInfo>,
                          setup: RatelimitsReply, w: World, now: int) returns (result: RunResult)
    requires Covers(w, |maps|)
    ensures result == Run(FromEnv(env), Scan(listing), maps, setup, w, now)
  {
    var mirror := FromEnv(env);
    if listing.None? {
      return DirectoryFailed;
    }
    var existing := ExistingIds(listing.value);
    var missing := MissingMaps(maps, existing);
    if |missing| == 0 {
      return UpToDate;
    }
    var limiter := new RateLimiter(mirror, now);
    if mirror == Catboy {
      var ok := limiter.RefreshCatboyLimits(setup, now);
      if !ok {
        return SetupFailed;
      }
    }
    ghost var spec := Schedule(mirror, limiter.State(), now, missing, w, 0, []);
    assert Run(mirror, Scan(listing), maps, setup, w, now) == Ran(spec.0);
    var reports: seq<Report> := [];
    var t := now;
    var k := 0;
    while k < |missing|
      invariant k <= |missing|
      invariant limiter.mirror == mirror
      invariant Schedule(mirror, limiter.State(), t, missing, w, k, reports) == spec
      decreases |missing| - k
    {
      var b := missing[k];
      var outcome, requests, waits, backoffs, end :=
        DownloadBeatmap(limiter, w.scripts[k], w.refreshes[k], t + w.randoms[k] % JitterMs);
      reports := reports + [Report(b, outcome)];
      if outcome == Stalled {
        return Ran(reports);
      }
      t := end;
      k := k + 1;
    }
    return Ran(reports);
  }
}

=== FILE: rate_limiter.dfy ===
/** The per-run rate limiter (src/downloader.rs, `RateLimiter` and
    `RateLimitState`). Time is an integer number of milliseconds supplied
    by the caller; a sleep is returned as its duration and the caller's
    clock moves on by exactly that much. */
module RateLimiting {
  import opened Wrappers
  import opened StdText
  import opened Mirrors

  /** The quota window after which the allowance is refilled, and the grace
      period added to a sleep until the window ends. */
  const WindowMs: nat := 60_000
  const GraceMs: nat := 100

  /** `RateLimitState`. `downloadCount` is unbounded here (see README). */
  datatype QuotaState = QuotaState(remaining: U32, resetAt: int, limitCap: U32, downloadCount: nat)

  /** The state `RateLimiter::new` starts from. */
  function InitialQuota(now: int): QuotaState {
    QuotaState(60, now + WindowMs, 60, 0)
  }

  /** What one iteration of the `wait` loop does. */
  datatype Step = Consumed | Refilled | Sleep(ms: nat)

  /** One iteration of the `wait` loop at time `now`. */
  function WaitStep(q: QuotaState, now: int): (Step, QuotaState) {
    if q.remaining > 0 then (Consumed, q.(remaining := q.remaining - 1))
    else if now >= q.resetAt then (Refilled, q.(remaining := q.limitCap, resetAt := now + WindowMs))
    else (Sleep(q.resetAt - now + GraceMs), q)
  }

  /** The outcome of running the `wait` loop: whether it returned, the time
      it returned at, the sleeps it took and the state it left. */
  datatype WaitRun = WaitRun(granted: bool, at: int, sleeps: seq<nat>, after: QuotaState)

  /** At most `fuel` iterations of the `wait` loop, time advancing by each sleep. */
  function WaitFrom(q: QuotaState, now: int, fuel: nat): WaitRun
    decreases fuel
  {
    if fuel == 0 then WaitRun(false, now, [], q)
    else
      var (step, q') := WaitStep(q, now);
      match step
      case Consumed => WaitRun(true, now, [], q')
      case Refilled => WaitFrom(q', now, fuel - 1)
      case Sleep(d) =>
        var r := WaitFrom(q', now + d, fuel - 1);
        r.(sleeps := [d] + r.sleeps)
  }

  /** No allowance and nothing to refill with: every refill hands out zero
      units, so `wait` never returns. */
  predicate Starved(q: QuotaState) {
    q.remaining == 0 && q.limitCap == 0
  }

  /** Enough iterations for `wait` to return from any state that is not starved. */
  const WaitFuel: nat := 3

  /** The complete `wait` call, in closed form: take a unit if there is
      one; otherwise, unless the state is starved (then the source's loop
      never returns, reported as `granted == false` with nothing changed),
      refill when the window has ended, or else sleep until 100 ms past its
      end and refill then; a refilled window starts a minute after the
      refill. `AcquireIsLoop` proves this is what the loop does. */
  function Acquire(q: QuotaState, now: int): WaitRun {
    if q.remaining > 0 then WaitRun(true, now, [], q.(remaining := q.remaining - 1))
    else if Starved(q) then WaitRun(false, now, [], q)
    else if now >= q.resetAt then
      WaitRun(true, now, [], q.(remaining := q.limitCap - 1, resetAt := now + WindowMs))
    else
      var t := q.resetAt + GraceMs;
      WaitRun(true, t, [t - now], q.(remaining := q.limitCap - 1, resetAt := t + WindowMs))
  }

  function Sum(s: seq<nat>): nat {
    if s == [] then 0 else s[0] + Sum(s[1..])
  }

  lemma SumPrepend(d: nat, s: seq<nat>)
    ensures Sum([d] + s) == d + Sum(s)
  {
    assert ([d] + s)[1..] == s;
  }

  lemma {:induction false} SumAppend(a: seq<nat>, b: seq<nat>)
    ensures Sum(a + b) == Sum(a) + Sum(b)
    decreases |a|
  {
    if a == [] {
      assert a + b == b;
    } else {
      assert (a + b)[1..] == a[1..] + b;
      SumAppend(a[1..], b);
    }
  }

  /** From a starved state the loop never returns, however many iterations
      run: refills hand out nothing and every later check sleeps again. */
  lemma {:induction false} WaitStarves(q: QuotaState, now: int, fuel: nat)
    requires Starved(q)
    ensures !WaitFrom(q, now, fuel).granted
    decreases fuel
  {
    if fuel > 0 {
      var (step, q') := WaitStep(q, now);
      assert Starved(q');
      match step
      case Refilled => WaitStarves(q', now, fuel - 1);
      case Sleep(d) => WaitStarves(q', now + d, fuel - 1);
    }
  }

  /** From a state that is not starved the loop returns within `WaitFuel`
      iterations, with exactly the result `Acquire` gives, and more
      iterations change nothing; from a starved one it returns after no
      number of iterations. So `Acquire` is what the unbounded loop does. */
  lemma AcquireIsLoop(q: QuotaState, now: int, fuel: nat)
    ensures !Starved(q) && fuel >= WaitFuel ==> WaitFrom(q, now, fuel) == Acquire(q, now)
    ensures Acquire(q, now).granted <==> !Starved(q)
    ensures Starved(q) ==> !WaitFrom(q, now, fuel).granted
  {
    if Starved(q) {
      WaitStarves(q, now, fuel);
    } else if fuel >= WaitFuel && q.remaining == 0 {
      if now >= q.resetAt {
        var q1 := q.(remaining := q.limitCap, resetAt := now + WindowMs);
        assert WaitStep(q, now) == (Refilled, q1);
        assert WaitFrom(q, now, fuel) == WaitFrom(q1, now, fuel - 1);
      } else {
        var d := q.resetAt - now + GraceMs;
        var t := now + d;
        var q1 := q.(remaining := q.limitCap, resetAt := t + WindowMs);
        assert WaitStep(q, now) == (Sleep(d), q);
        assert WaitStep(q, t) == (Refilled, q1);
        assert WaitFrom(q, t, fuel - 1) == WaitFrom(q1, t, fuel - 2);
      }
    }
  }

  /** The time `wait` returns at is `now` plus the sleeps it took; when it
      started with no unit left it never returns before the window ends, and
      it takes exactly one unit from what it had or from a refill, leaving
      the cap and the download count alone. */
  lemma {:induction false} WaitFromTiming(q: QuotaState, now: int, fuel: nat)
    ensures var r := WaitFrom(q, now, fuel);
      && r.at == now + Sum(r.sleeps)
      && r.after.limitCap == q.limitCap && r.after.downloadCount == q.downloadCount
      && (r.granted && q.remaining == 0 ==> r.at >= q.resetAt && r.after.remaining == q.limitCap - 1)
      && (r.granted && q.remaining > 0 ==> r.after == q.(remaining := q.remaining - 1) && r.at == now)
    decreases fuel
  {
    if fuel > 0 {
      var (step, q') := WaitStep(q, now);
      match step
      case Consumed =>
      case Refilled =>
        WaitFromTiming(q', now, fuel - 1);
        var r := WaitFrom(q', now, fuel - 1);
        if r.granted {
          assert q'.remaining == q.limitCap;
          if q.limitCap == 0 {
            WaitStarves(q', now, fuel - 1);
          }
        }
      case Sleep(d) =>
        WaitFromTiming(q', now + d, fuel - 1);
        SumPrepend(d, WaitFrom(q', now + d, fuel - 1).sleeps);
    }
  }

  /** `Acquire` returns at `now` plus its sleeps and never earlier than
      `now`, never before the window's end when no unit was left, and keeps
      the cap and the download count. */
  lemma AcquireTiming(q: QuotaState, now: int)
    ensures var r := Acquire(q, now);
      && r.at == now + Sum(r.sleeps) && r.at >= now
      && r.after.limitCap == q.limitCap && r.after.downloadCount == q.downloadCount
      && (r.granted && q.remaining == 0 ==> r.at >= q.resetAt)
      && (!r.granted ==> r.after == q && r.sleeps == [])
  {
    var r := Acquire(q, now);
    if |r.sleeps| == 1 {
      assert r.sleeps[1..] == [];
    }
  }

  /** No unit left, a positive cap and the window over (or ending right
      now): the call refills and takes a unit at once, without sleeping. */
  lemma AcquireRefillsAtOnce(q: QuotaState, now: int)
    requires q.remaining == 0 && q.limitCap > 0 && now >= q.resetAt
    ensures var r := Acquire(q, now);
      r.granted && r.at == now && r.sleeps == [] && r.after == q.(remaining := q.limitCap - 1, resetAt := now + WindowMs)
  {
  }

  /** Worked example: no unit left and the window ending 2 s from now; the
      call does not return before those 2 s have passed. */
  lemma AcquireWaitsForWindow(now: int)
    ensures var r := Acquire(QuotaState(0, now + 2000, 60, 0), now);
      r.granted && r.at >= now + 2000
  {
  }

  /** `get_header_u32` / `get_header_u64` on a header map keyed by
      lower-case header name. */
  function HeaderU32(h: map<string, string>, key: string): (r: Option<nat>)
    ensures r.Some? ==> key in h && r.value < U32Limit && ParseU32(h[key]) == r
    ensures key in h && ParseU32(h[key]).Some? ==> r.Some?
  {
    if key in h then ParseU32(h[key]) else None
  }

  function HeaderU64(h: map<string, string>, key: string): (r: Option<nat>)
    ensures r.Some? ==> key in h && r.value < U64Limit && ParseU64(h[key]) == r
    ensures key in h && ParseU64(h[key]).Some? ==> r.Some?
  {
    if key in h then ParseU64(h[key]) else None
  }

  /** The seconds until the quota resets, from `x-ratelimit-reset` when it
      parses and otherwise from `retry-after`. */
  function ResetSecs(h: map<string, string>): Option<nat> {
    HeaderU64(h, "x-ratelimit-reset").OrElse(HeaderU64(h, "retry-after"))
  }

  /** `update_from_headers`: only Nerinyan reports its quota in headers;
      each field is overwritten by a header that parses and kept otherwise. */
  function ApplyHeaders(m: Mirror, q: QuotaState, h: map<string, string>, now: int): QuotaState {
    if m != Nerinyan then q
    else
      var rem := HeaderU32(h, "x-ratelimit-remaining-minute");
      var cap := HeaderU32(h, "x-ratelimit-limit-minute");
      var secs := ResetSecs(h);
      q.(remaining := if rem.Some? then rem.value else q.remaining,
         limitCap := if cap.Some? then cap.value else q.limitCap,
         resetAt := if secs.Some? then now + (secs.value + 1) * 1000 else q.resetAt)
  }

  /** Field by field: for Nerinyan `remaining` and `limitCap` take the value
      of their header when it parses as a `u32` and are kept otherwise,
      `resetAt` becomes `now` plus one second more than the reset or
      retry-after header says, and the download count never changes; for
      Catboy nothing changes. */
  lemma ApplyHeadersSpec(m: Mirror, q: QuotaState, h: map<string, string>, now: int)
    ensures var q' := ApplyHeaders(m, q, h, now);
      && q'.downloadCount == q.downloadCount
      && (m == Catboy ==> q' == q)
      && (m == Nerinyan ==>
          && (var k := "x-ratelimit-remaining-minute";
              if k in h && ParseU32(h[k]).Some? then q'.remaining == ParseU32(h[k]).value
              else q'.remaining == q.remaining)
          && (var k := "x-ratelimit-limit-minute";
              if k in h && ParseU32(h[k]).Some? then q'.limitCap == ParseU32(h[k]).value
              else q'.limitCap == q.limitCap)
          && (var r := "x-ratelimit-reset"; var a := "retry-after";
              if r in h && ParseU64(h[r]).Some? then q'.resetAt == now + (ParseU64(h[r]).value + 1) * 1000
              else if a in h && ParseU64(h[a]).Some? then q'.resetAt == now + (ParseU64(h[a]).value + 1) * 1000
              else q'.resetAt == q.resetAt))
  {
  }

  /** Applying the same headers twice at the same time is the same as once. */
  lemma ApplyHeadersIdempotent(m: Mirror, q: QuotaState, h: map<string, string>, now: int)
    ensures ApplyHeaders(m, ApplyHeaders(m, q, h, now), h, now) == ApplyHeaders(m, q, h, now)
  {
  }

  /** Worked example: `x-ratelimit-remaining-minute: 5` sets `remaining` to 5
      whatever it was, for Nerinyan only. */
  lemma ApplyHeadersExample(q: QuotaState, now: int)
    ensures ApplyHeaders(Nerinyan, q, map["x-ratelimit-remaining-minute" := "5"], now).remaining == 5
    ensures ApplyHeaders(Catboy, q, map["x-ratelimit-remaining-minute" := "5"], now) == q
  {
    var h := map["x-ratelimit-remaining-minute" := "5"];
    assert DecimalString(5) == "5";
    ParseDecimal(5, U32Limit);
    assert ParseU32(h["x-ratelimit-remaining-minute"]) == Some(5);
  }

  lemma ParseExamples()
    ensures ParseU32("100") == Some(100) && ParseU32("10") == Some(10)
  {
    assert DecimalString(1) == "1";
    assert DecimalString(10) == "10";
    assert DecimalString(100) == "100";
    ParseDecimal(100, U32Limit);
    ParseDecimal(10, U32Limit);
  }

  /** Headers may leave more units remaining than the cap: no invariant
      `remaining <= limitCap` holds. */
  lemma RemainingMayExceedCap()
    ensures var q := ApplyHeaders(Nerinyan, InitialQuota(0),
              map["x-ratelimit-remaining-minute" := "100", "x-ratelimit-limit-minute" := "10"], 0);
      q.remaining == 100 && q.limitCap == 10
  {
    var h := map["x-ratelimit-remaining-minute" := "100", "x-ratelimit-limit-minute" := "10"];
    ParseExamples();
    assert h["x-ratelimit-remaining-minute"] == "100";
    assert h["x-ratelimit-limit-minute"] == "10";
    assert HeaderU32(h, "x-ratelimit-remaining-minute") == Some(100);
    assert HeaderU32(h, "x-ratelimit-limit-minute") == Some(10);
  }

  /** The Catboy ratelimits body, `{remaining: {download}, types: {download}}`. */
  datatype RatelimitsBody = RatelimitsBody(remainingDownload: int, typesDownload: int)

  /** The outcome of the GET to the ratelimits endpoint: the request failed,
      or a response arrived with its status and its body as decoded JSON
      (`None` when the body is not such JSON). */
  datatype RatelimitsReply =
    | RatelimitsSendFailed
    | RatelimitsAnswered(status: nat, body: Option<RatelimitsBody>)

  /** `StatusCode::is_success`: a 2xx status. */
  predicate IsSuccess(status: nat) {
    200 <= status <= 299
  }

  predicate IsU32(x: int) {
    0 <= x < U32Limit
  }

  /** `refresh_catboy_limits`: whether it returned `Ok`, and the new state.
      A failed request and a body that does not decode into two `u32`s are
      errors; a non-success status is not, and leaves the state alone. */
  function Refresh(m: Mirror, q: QuotaState, reply: RatelimitsReply, now: int): (bool, QuotaState) {
    if m != Catboy then (true, q)
    else match reply
      case RatelimitsSendFailed => (false, q)
      case RatelimitsAnswered(status, body) =>
        if !IsSuccess(status) then (true, q)
        else if body.None? || !IsU32(body.value.remainingDownload) || !IsU32(body.value.typesDownload) then (false, q)
        else (true, q.(remaining := body.value.remainingDownload,
                       limitCap := body.value.typesDownload,
                       resetAt := now + WindowMs))
  }

  /** A refresh changes the state only for Catboy on a 2xx response whose
      body decodes, and then sets both counters from it and restarts the
      window; the download count is never touched. It reports an error
      exactly when the request failed or a 2xx body did not decode, and an
      error leaves the state as it was. */
  lemma RefreshSpec(m: Mirror, q: QuotaState, reply: RatelimitsReply, now: int)
    ensures var (ok, q') := Refresh(m, q, reply, now);
      && q'.downloadCount == q.downloadCount
      && (q' != q ==> m == Catboy && reply.RatelimitsAnswered? && IsSuccess(reply.status))
      && (!ok ==> q' == q)
      && (m == Catboy && reply.RatelimitsAnswered? && IsSuccess(reply.status) && ok ==>
            q' == q.(remaining := reply.body.value.remainingDownload,
                     limitCap := reply.body.value.typesDownload, resetAt := now + WindowMs))
      && (!ok <==> m == Catboy && (reply.RatelimitsSendFailed?
                     || (IsSuccess(reply.status) && (reply.body.None?
                         || !IsU32(reply.body.value.remainingDownload)
                         || !IsU32(reply.body.value.typesDownload)))))
  {
  }

  /** Refresh every 50 completed downloads. */
  const RefreshEvery: nat := 50

  /** `on_download_complete`: whether it asked for a refresh, and the new
      state. Only Catboy counts downloads; the refresh's error is dropped. */
  function Complete(m: Mirror, q: QuotaState, reply: RatelimitsReply, now: int): (bool, QuotaState) {
    if m != Catboy then (false, q)
    else
      var q1 := q.(downloadCount := q.downloadCount + 1);
      if q1.downloadCount % RefreshEvery == 0 then (true, Refresh(m, q1, reply, now).1)
      else (false, q1)
  }

  /** For Catboy the count goes up by exactly one and a refresh is asked for
      exactly when the new count is a multiple of 50; apart from the count,
      the state changes only through that refresh, whose failure is ignored.
      For Nerinyan nothing changes. */
  lemma CompleteSpec(m: Mirror, q: QuotaState, reply: RatelimitsReply, now: int)
    ensures var (refreshed, q') := Complete(m, q, reply, now);
      && (m == Nerinyan ==> !refreshed && q' == q)
      && (m == Catboy ==>
          && q'.downloadCount == q.downloadCount + 1
          && (refreshed <==> (q.downloadCount + 1) % RefreshEvery == 0)
          && (!refreshed ==> q' == q.(downloadCount := q.downloadCount + 1))
          && (refreshed ==> q' == Refresh(m, q.(downloadCount := q.downloadCount + 1), reply, now).1))
  {
    RefreshSpec(m, q.(downloadCount := q.downloadCount + 1), reply, now);
  }

  /** How many of the counts `c + 1 .. c + n` are multiples of 50. */
  function RefreshPoints(c: nat, n: nat): nat
    decreases n
  {
    if n == 0 then 0
    else (if (c + 1) % RefreshEvery == 0 then 1 else 0) + RefreshPoints(c + 1, n - 1)
  }

  /** `n` consecutive Catboy completions, each with its own refresh reply:
      the final state and how many refreshes were asked for. */
  function CompleteAll(q: QuotaState, replies: seq<RatelimitsReply>, now: int): (nat, QuotaState)
    decreases |replies|
  {
    if replies == [] then (0, q)
    else
      var (refreshed, q1) := Complete(Catboy, q, replies[0], now);
      var (k, q2) := CompleteAll(q1, replies[1..], now);
      ((if refreshed then 1 else 0) + k, q2)
  }

  /** Passing `n` counts from `c` passes `(c + n) / 50 - c / 50` multiples of 50. */
  lemma {:induction false} RefreshPointsCount(c: nat, n: nat)
    ensures RefreshPoints(c, n) == (c + n) / RefreshEvery - c / RefreshEvery
    decreases n
  {
    if n > 0 {
      RefreshPointsCount(c + 1, n - 1);
      assert (c + 1) / RefreshEvery == c / RefreshEvery + (if (c + 1) % RefreshEvery == 0 then 1 else 0);
    }
  }

  /** Each completion adds one to the count, and a refresh is asked for at
      each count that is a multiple of 50. */
  lemma {:induction false} CompleteAllCounts(q: QuotaState, replies: seq<RatelimitsReply>, now: int)
    ensures var (k, q') := CompleteAll(q, replies, now);
      q'.downloadCount == q.downloadCount + |replies| && k == RefreshPoints(q.downloadCount, |replies|)
    decreases |replies|
  {
    if replies != [] {
      var (refreshed, q1) := Complete(Catboy, q, replies[0], now);
      CompleteSpec(Catboy, q, replies[0], now);
      CompleteAllCounts(q1, replies[1..], now);
    }
  }

  /** After `n` Catboy completions starting from count `c` the count is
      `c + n`, and one refresh was asked for per multiple of 50 passed:
      `(c + n) / 50 - c / 50` of them. */
  lemma CompleteAllRefreshes(q: QuotaState, replies: seq<RatelimitsReply>, now: int)
    ensures var (k, q') := CompleteAll(q, replies, now);
      && q'.downloadCount == q.downloadCount + |replies|
      && k == (q.downloadCount + |replies|) / RefreshEvery - q.downloadCount / RefreshEvery
  {
    CompleteAllCounts(q, replies, now);
    RefreshPointsCount(q.downloadCount, |replies|);
  }

  /** The limiter shared by all downloads of a run, one object whose fields
      the operations update in place. */
  class RateLimiter {
    const mirror: Mirror
    var remaining: U32
    var resetAt: int
    var limitCap: U32
    var downloadCount: nat

    function State(): QuotaState
      reads this
    {
      QuotaState(remaining, resetAt, limitCap, downloadCount)
    }

    /** `RateLimiter::new`: 60 units, a window ending a minute from now. */
    constructor (mirror: Mirror, now: int)
      ensures this.mirror == mirror && State() == InitialQuota(now)
    {
      this.mirror := mirror;
      remaining := 60;
      resetAt := now + WindowMs;
      limitCap := 60;
      downloadCount := 0;
    }

    /** One iteration of the `wait` loop. */
    method Step(now: int) returns (step: Step)
      modifies this
      ensures (step, State()) == WaitStep(old(State()), now)
    {
      if remaining > 0 {
        remaining := remaining - 1;
        return Consumed;
      }
      if now >= resetAt {
        remaining := limitCap;
        resetAt := now + WindowMs;
        return Refilled;
      }
      return Sleep(resetAt - now + GraceMs);
    }

    /** `wait`: loop until a unit is taken, sleeping while the window is
        exhausted. From a starved state the source's loop never ends; here
        the call then reports `granted == false` and changes nothing. */
    method Wait(now: int) returns (granted: bool, at: int, sleeps: seq<nat>)
      modifies this
      ensures WaitRun(granted, at, sleeps, State()) == Acquire(old(State()), now)
    {
      at, sleeps := now, [];
      if remaining == 0 && limitCap == 0 {
        return false, at, sleeps;
      }
      ghost var fuel: nat := WaitFuel;
      while true
        invariant !Starved(State())
        invariant fuel > (if remaining > 0 then 0 else if at >= resetAt then 1 else 2)
        invariant WaitFrom(old(State()), now, WaitFuel) ==
                  var r := WaitFrom(State(), at, fuel); r.(sleeps := sleeps + r.sleeps)
        decreases if remaining > 0 then 0 else if at >= resetAt then 1 else 2
      {
        var step := Step(at);
        match step
        case Consumed =>
          AcquireIsLoop(old(State()), now, WaitFuel);
          return true, at, sleeps;
        case Refilled =>
        case Sleep(d) =>
          sleeps := sleeps + [d];
          at := at + d;
          fuel := fuel - 1;
      }
    }

    /** `update_from_headers`. */
    method UpdateFromHeaders(h: map<string, string>, now: int)
      modifies this
      ensures State() == ApplyHeaders(mirror, old(State()), h, now)
    {
      if mirror == Nerinyan {
        var rem := HeaderU32(h, "x-ratelimit-remaining-minute");
        if rem.Some? {
          remaining := rem.value;
        }
        var cap := HeaderU32(h, "x-ratelimit-limit-minute");
        if cap.Some? {
          limitCap := cap.value;
        }
        var secs := ResetSecs(h);
        if secs.Some? {
          resetAt := now + (secs.value + 1) * 1000;
        }
      }
    }

    /** `refresh_catboy_limits`, with the endpoint's reply given. */
    method RefreshCatboyLimits(reply: RatelimitsReply, now: int) returns (ok: bool)
      modifies this
      ensures (ok, State()) == Refresh(mirror, old(State()), reply, now)
    {
      if mirror == Catboy {
        match reply
        case RatelimitsSendFailed =>
          return false;
        case RatelimitsAnswered(status, body) =>
          if IsSuccess(status) {
            if body.None? || !IsU32(body.value.remainingDownload) || !IsU32(body.value.typesDownload) {
              return false;
            }
            remaining := body.value.remainingDownload;
            limitCap := body.value.typesDownload;
            resetAt := now + WindowMs;
          }
      }
      return true;
    }

    /** `on_download_complete`, with the reply a refresh would get. */
    method OnDownloadComplete(reply: RatelimitsReply, now: int) returns (refreshed: bool)
      modifies this
      ensures (refreshed, State()) == Complete(mirror, old(State()), reply, now)
    {
      refreshed := false;
      if mirror == Catboy {
        downloadCount := downloadCount + 1;
        if downloadCount % RefreshEvery == 0 {
          refreshed := true;
          var _ := RefreshCatboyLimits(reply, now);
        }
      }
    }
  }
}

=== FILE: scan.dfy ===
/** The scan of the output directory for beatmap sets already on disk, and
    the selection of the maps still to download (src/downloader.rs,
    `download_beatmaps`). */
module Scanning {
  import opened Wrappers
  import opened StdText
  import opened BeatmapTypes

  /** One item `read_dir` yields: an error, or an entry with its file name,
      whether that name is valid Unicode (`to_str` succeeds), and its size
      (`None` when its metadata cannot be read). */
  datatype DirItem =
    | Unreadable
    | Entry(name: string, unicode: bool, size: Option<nat>)

  /** The chain of filters applied to one item: readable, extension exactly
      "osz", metadata readable with a non-zero length, a Unicode name, and a
      first whitespace-separated word that parses as a `u32`. */
  function EntryId(e: DirItem): (r: Option<nat>)
    ensures r.Some? ==> r.value < U32Limit
    ensures r.Some? ==> e.Entry? && Extension(e.name) == Some("osz") && e.unicode
                        && e.size.Some? && e.size.value > 0
    ensures e.Entry? && Extension(e.name) == Some("osz") && e.size.Some? && e.size.value > 0 && e.unicode ==>
              r == (if FirstToken(e.name).Some? then ParseU32(FirstToken(e.name).value) else None)
  {
    match e
    case Unreadable => None
    case Entry(name, unicode, size) =>
      if Extension(name) != Some("osz") then None
      else if size.None? || size.value == 0 then None
      else if !unicode then None
      else match FirstToken(name)
        case None => None
        case Some(word) => ParseU32(word)
  }

  /** The values of the `Some`s among `found`: what `filter_map` followed by
      `collect` into a set keeps. */
  function Collect(found: seq<Option<nat>>): (ids: set<nat>)
    ensures forall id :: id in ids <==> exists i :: 0 <= i < |found| && found[i] == Some(id)
    decreases |found|
  {
    if found == [] then {}
    else
      var init := Collect(found[..|found| - 1]);
      assert forall i :: 0 <= i < |found| - 1 ==> found[..|found| - 1][i] == found[i];
      match found[|found| - 1]
      case Some(id) => init + {id}
      case None => init
  }

  /** `existing_mapsets`: the ids of the items that pass `EntryId`. */
  function ExistingIds(items: seq<DirItem>): (ids: set<nat>)
    ensures forall id :: id in ids <==> exists i :: 0 <= i < |items| && EntryId(items[i]) == Some(id)
  {
    var found := seq(|items|, i requires 0 <= i < |items| => EntryId(items[i]));
    assert forall i :: 0 <= i < |items| ==> found[i] == EntryId(items[i]);
    Collect(found)
  }

  /** `missing_maps`: the maps whose set id is not on disk, in their order. */
  function MissingMaps(maps: seq<BeatmapInfo>, existing: set<nat>): (r: seq<BeatmapInfo>)
    ensures |r| <= |maps|
    ensures forall b :: b in r <==> b in maps && b.beatmapsetId !in existing
    decreases |maps|
  {
    if maps == [] then []
    else
      var rest := MissingMaps(maps[1..], existing);
      assert forall b :: b in maps <==> b == maps[0] || b in maps[1..];
      if maps[0].beatmapsetId in existing then rest else [maps[0]] + rest
  }

  /** The filter keeps the order: selecting from two lists one after the
      other is selecting from their concatenation. */
  lemma {:induction false} MissingMapsAppend(a: seq<BeatmapInfo>, b: seq<BeatmapInfo>, existing: set<nat>)
    ensures MissingMaps(a + b, existing) == MissingMaps(a, existing) + MissingMaps(b, existing)
    decreases |a|
  {
    if a != [] {
      assert (a + b)[0] == a[0];
      assert (a + b)[1..] == a[1..] + b;
      MissingMapsAppend(a[1..], b, existing);
    } else {
      assert a + b == b;
    }
  }

  /** Nothing is selected exactly when every set is already on disk. */
  lemma MissingMapsEmpty(maps: seq<BeatmapInfo>, existing: set<nat>)
    ensures MissingMaps(maps, existing) == [] <==> forall i :: 0 <= i < |maps| ==> maps[i].beatmapsetId in existing
  {
    var r := MissingMaps(maps, existing);
    if r != [] {
      assert r[0] in r;
    }
  }

  /** Scanning two listings one after the other finds the ids of both. */
  lemma {:induction false} ExistingIdsAppend(a: seq<DirItem>, b: seq<DirItem>)
    ensures ExistingIds(a + b) == ExistingIds(a) + ExistingIds(b)
  {
    var ab := a + b;
    forall id | id in ExistingIds(a + b)
      ensures id in ExistingIds(a) + ExistingIds(b)
    {
      var i :| 0 <= i < |ab| && EntryId(ab[i]) == Some(id);
      if i < |a| {
        assert ab[i] == a[i];
      } else {
        assert ab[i] == b[i - |a|];
      }
    }
    forall id | id in ExistingIds(a) + ExistingIds(b)
      ensures id in ExistingIds(a + b)
    {
      if id in ExistingIds(a) {
        var i :| 0 <= i < |a| && EntryId(a[i]) == Some(id);
        assert ab[i] == a[i];
      } else {
        var i :| 0 <= i < |b| && EntryId(b[i]) == Some(id);
        assert ab[|a| + i] == b[i];
      }
    }
  }

  lemma OszExtension(stem: string)
    requires |stem| > 0
    ensures Extension(stem + ".osz") == Some("osz")
  {
    assert stem + ".osz" == stem + "." + "osz";
    ExtensionOfSuffix(stem, "osz");
  }

  lemma LeadingId(id: nat, rest: string)
    ensures FirstToken(DecimalString(id) + " " + rest + ".osz") == Some(DecimalString(id))
  {
    var word := DecimalString(id);
    assert word + " " + rest + ".osz" == word + [' '] + (rest + ".osz");
    assert forall j :: 0 <= j < |word| ==> IsDigit(word[j]);
    FirstTokenOfWord(word, ' ', rest + ".osz");
  }

  /** A non-empty file whose name is a set id, a space, anything, and
      ".osz" is recognised as that set. */
  lemma NameRecognised(id: nat, rest: string, size: nat)
    requires id < U32Limit && size > 0
    ensures EntryId(Entry(DecimalString(id) + " " + rest + ".osz", true, Some(size))) == Some(id)
  {
    OszExtension(DecimalString(id) + " " + rest);
    LeadingId(id, rest);
    ParseDecimal(id, U32Limit);
  }

  /** A non-empty file saved under `BeatmapInfo::filename` is recognised by
      the scan as its beatmap set. */
  lemma FilenameRecognised(b: BeatmapInfo, size: nat)
    requires size > 0
    ensures EntryId(Entry(Filename(b), true, Some(size))) == Some(b.beatmapsetId as nat)
  {
    var id := DecimalString(b.beatmapsetId);
    var artist, title := Sanitize(b.artist), Sanitize(b.title);
    assert Filename(b) == id + " " + (artist + " - " + title) + ".osz";
    NameRecognised(b.beatmapsetId, artist + " - " + title, size);
  }

  /** A file saved for a set marks every map of that set as downloaded. */
  lemma DownloadedMapIsSkipped(maps: seq<BeatmapInfo>, items: seq<DirItem>, k: nat, b: BeatmapInfo, size: nat)
    requires k < |items| && size > 0 && items[k] == Entry(Filename(b), true, Some(size))
    ensures forall c :: c in MissingMaps(maps, ExistingIds(items)) ==> c.beatmapsetId != b.beatmapsetId
  {
    FilenameRecognised(b, size);
  }

  /** `f` is a non-empty file, with a Unicode name, saved as `b`'s. */
  predicate SavedAs(f: DirItem, b: BeatmapInfo) {
    f.Entry? && f.name == Filename(b) && f.unicode && f.size.Some? && f.size.value > 0
  }

  /** Once a non-empty file has been saved for every map selected, a second
      scan of the directory selects nothing. */
  lemma RescanAfterDownload(maps: seq<BeatmapInfo>, items: seq<DirItem>, saved: seq<DirItem>)
    requires forall b :: b in MissingMaps(maps, ExistingIds(items)) ==>
               exists j :: 0 <= j < |saved| && SavedAs(saved[j], b)
    ensures MissingMaps(maps, ExistingIds(items + saved)) == []
  {
    ExistingIdsAppend(items, saved);
    var existing := ExistingIds(items);
    forall i | 0 <= i < |maps|
      ensures maps[i].beatmapsetId in ExistingIds(items + saved)
    {
      var b := maps[i];
      if b.beatmapsetId !in existing {
        assert b in MissingMaps(maps, existing);
        var j :| 0 <= j < |saved| && SavedAs(saved[j], b);
        FilenameRecognised(b, saved[j].size.value);
        assert saved[j] == Entry(Filename(b), true, Some(saved[j].size.value));
      }
    }
    MissingMapsEmpty(maps, ExistingIds(items + saved));
  }

  /** Worked example: "42 A - B.osz" is counted when it is not empty. */
  lemma ScanExampleCounted()
    ensures EntryId(Entry("42 A - B.osz", true, Some(7))) == Some(42)
    ensures EntryId(Entry("42 A - B.osz", true, Some(0))) == None
  {
    DecimalExample();
    assert "42 A - B.osz" == DecimalString(42) + " " + "A - B" + ".osz";
    NameRecognised(42, "A - B", 7);
  }

  /** Worked example: a partial download "42.osz.part" is not counted. */
  lemma ScanExamplePart()
    ensures EntryId(Entry("42.osz.part", true, Some(7))) == None
  {
    assert "42.osz" + "." + "part" == "42.osz.part";
    ExtensionOfSuffix("42.osz", "part");
    assert "part" != "osz";
  }

  /** Worked example: a name that does not start with the id is not counted. */
  lemma ScanExampleNoId()
    ensures EntryId(Entry("x 42.osz", true, Some(7))) == None
  {
    OszExtension("x 42");
    assert "x 42" + ".osz" == "x 42.osz";
    assert "x" + [' '] + "42.osz" == "x 42.osz";
    FirstTokenOfWord("x", ' ', "42.osz");
    ParseRejects("x", U32Limit, 0);
  }
}

=== FILE: std_text.dfy ===
/** The behaviour of the few Rust standard-library text operations the
    downloader relies on: `format!("{}", n)` for unsigned integers,
    `str::parse::<u32>` / `str::parse::<u64>`, `char::is_whitespace`,
    `char::is_control`, `str::split_whitespace().next()`, ASCII lower-casing
    and `Path::extension`. */
module StdText {
  import opened Wrappers

  /** 2^32 and 2^64: one past the largest `u32` and `u64`. */
  const U32Limit: nat := 0x1_0000_0000
  const U64Limit: nat := 0x1_0000_0000_0000_0000

  type U32 = x: nat | x < U32Limit

  predicate IsDigit(c: char) {
    '0' <= c <= '9'
  }

  predicate AllDigits(s: string) {
    forall i :: 0 <= i < |s| ==> IsDigit(s[i])
  }

  function DigitValue(c: char): (d: nat)
    requires IsDigit(c)
    ensures d < 10
  {
    (c as int) - ('0' as int)
  }

  function DigitChar(d: nat): (c: char)
    requires d < 10
    ensures IsDigit(c) && DigitValue(c) == d
  {
    ('0' as int + d) as char
  }

  /** The decimal rendering `format!("{}", n)`: most significant digit
      first, no sign, no leading zero. */
  function DecimalString(n: nat): (s: string)
    ensures |s| >= 1 && AllDigits(s)
    ensures s[0] == '0' ==> n == 0 && s == "0"
    decreases n
  {
    if n < 10 then [DigitChar(n)] else DecimalString(n / 10) + [DigitChar(n % 10)]
  }

  /** The number a string of decimal digits denotes (leading zeros allowed). */
  function DigitsValue(s: string): nat
    requires AllDigits(s)
    decreases |s|
  {
    if s == [] then 0 else DigitsValue(s[..|s| - 1]) * 10 + DigitValue(s[|s| - 1])
  }

  /** Reads the digits of `s` from index `i` on, left to right, into the
      accumulator `acc`; nothing when a character is not a digit. */
  function ParseFrom(s: string, i: nat, acc: nat): Option<nat>
    requires i <= |s|
    decreases |s| - i
  {
    if i == |s| then Some(acc)
    else if !IsDigit(s[i]) then None
    else ParseFrom(s, i + 1, acc * 10 + DigitValue(s[i]))
  }

  /** `str::parse` for an unsigned integer type whose values are below
      `limit`: an optional leading `+`, then at least one ASCII digit and
      nothing else; a value that does not fit is an overflow error. */
  function ParseUnsigned(s: string, limit: nat): (r: Option<nat>)
    ensures r.Some? ==> r.value < limit
  {
    var start := if |s| > 0 && s[0] == '+' then 1 else 0;
    if start == |s| then None
    else match ParseFrom(s, start, 0)
      case Some(v) => if v < limit then Some(v) else None
      case None => None
  }

  function ParseU32(s: string): (r: Option<nat>)
    ensures r.Some? ==> r.value < U32Limit
  {
    ParseUnsigned(s, U32Limit)
  }

  function ParseU64(s: string): (r: Option<nat>)
    ensures r.Some? ==> r.value < U64Limit
  {
    ParseUnsigned(s, U64Limit)
  }

  lemma {:induction false} DigitsValueOfDecimal(n: nat)
    ensures DigitsValue(DecimalString(n)) == n
    decreases n
  {
    if n >= 10 {
      var s := DecimalString(n);
      assert s[..|s| - 1] == DecimalString(n / 10);
      DigitsValueOfDecimal(n / 10);
    }
  }

  /** Appending one character either extends the number read by one digit
      or makes the read fail. */
  lemma {:induction false} ParseFromAppend(x: string, c: char, i: nat, acc: nat)
    requires i <= |x|
    ensures ParseFrom(x + [c], i, acc) ==
      match ParseFrom(x, i, acc)
      case None => None
      case Some(a) => if IsDigit(c) then Some(a * 10 + DigitValue(c)) else None
    decreases |x| - i
  {
    var s := x + [c];
    if i == |x| {
      assert s[i] == c;
      if IsDigit(c) {
        assert ParseFrom(s, i + 1, acc * 10 + DigitValue(c)) == Some(acc * 10 + DigitValue(c));
      }
    } else {
      assert s[i] == x[i];
      if IsDigit(x[i]) {
        ParseFromAppend(x, c, i + 1, acc * 10 + DigitValue(x[i]));
      }
    }
  }

  /** Reading from the start agrees with the reference value `DigitsValue`
      on all-digit strings and fails on all others. */
  lemma {:induction false} ParseFromDigits(s: string)
    ensures ParseFrom(s, 0, 0) == if AllDigits(s) then Some(DigitsValue(s)) else None
    decreases |s|
  {
    if s != [] {
      var p, c := s[..|s| - 1], s[|s| - 1];
      assert s == p + [c];
      ParseFromDigits(p);
      ParseFromAppend(p, c, 0, 0);
      if AllDigits(p) && IsDigit(c) {
        assert AllDigits(s);
      } else if !AllDigits(p) {
        var k :| 0 <= k < |p| && !IsDigit(p[k]);
        assert s[k] == p[k];
      }
    }
  }

  /** Reading past a first character does not depend on it. */
  lemma {:induction false} ParseFromDrop(s: string, i: nat, acc: nat)
    requires 1 <= i <= |s|
    ensures ParseFrom(s, i, acc) == ParseFrom(s[1..], i - 1, acc)
    decreases |s| - i
  {
    if i < |s| {
      assert s[1..][i - 1] == s[i];
    }
    if i < |s| && IsDigit(s[i]) {
      assert s[1..][i - 1] == s[i];
      ParseFromDrop(s, i + 1, acc * 10 + DigitValue(s[i]));
    }
  }

  /** `ParseUnsigned` in terms of the reference value: the text after an
      optional `+` must be a non-empty string of digits whose value is below
      the limit. */
  lemma ParseUnsignedSpec(s: string, limit: nat)
    ensures var digits := if |s| > 0 && s[0] == '+' then s[1..] else s;
      ParseUnsigned(s, limit) ==
        if |digits| == 0 || !AllDigits(digits) then None
        else if DigitsValue(digits) < limit then Some(DigitsValue(digits))
        else None
  {
    var digits := if |s| > 0 && s[0] == '+' then s[1..] else s;
    ParseFromDigits(digits);
    if |s| > 0 && s[0] == '+' {
      ParseFromDrop(s, 1, 0);
    }
  }

  /** Parsing what `format!` printed gives the number back, with or without
      a leading `+`. */
  lemma ParseDecimal(n: nat, limit: nat)
    requires n < limit
    ensures ParseUnsigned(DecimalString(n), limit) == Some(n)
    ensures ParseUnsigned("+" + DecimalString(n), limit) == Some(n)
  {
    DigitsValueOfDecimal(n);
    ParseUnsignedSpec(DecimalString(n), limit);
    ParseUnsignedSpec("+" + DecimalString(n), limit);
    assert ("+" + DecimalString(n))[1..] == DecimalString(n);
  }

  /** The parse refuses the empty string, a lone sign, and any string with a
      character other than a digit past an optional leading `+` (so a `-`,
      whitespace or a second sign). */
  lemma ParseRejects(s: string, limit: nat, i: nat)
    requires i < |s| && !IsDigit(s[i]) && !(i == 0 && s[0] == '+')
    ensures ParseUnsigned(s, limit) == None
    ensures ParseUnsigned("", limit) == None && ParseUnsigned("+", limit) == None
  {
    var digits := if |s| > 0 && s[0] == '+' then s[1..] else s;
    if s[0] == '+' {
      assert digits[i - 1] == s[i];
    } else {
      assert digits[i] == s[i];
    }
    ParseUnsignedSpec(s, limit);
  }

  /** A well-formed digit string denoting a value at or above `limit` is an
      overflow, not a wrap-around. */
  lemma ParseOverflow(s: string, limit: nat)
    requires |s| > 0 && AllDigits(s) && DigitsValue(s) >= limit
    ensures ParseUnsigned(s, limit) == None
  {
    ParseUnsignedSpec(s, limit);
  }

  /** Unicode White_Space, which `char::is_whitespace` and
      `split_whitespace` use. */
  predicate IsWhitespace(c: char) {
    var n := c as int;
    (0x09 <= n <= 0x0D) || n == 0x20 || n == 0x85 || n == 0xA0 || n == 0x1680
    || (0x2000 <= n <= 0x200A) || n == 0x2028 || n == 0x2029 || n == 0x202F
    || n == 0x205F || n == 0x3000
  }

  /** `char::is_control`: general category Cc, U+0000..U+001F and U+007F..U+009F. */
  predicate IsControl(c: char) {
    var n := c as int;
    n <= 0x1F || (0x7F <= n <= 0x9F)
  }

  /** Index of the first non-whitespace character at or after `i`, or `|s|`. */
  function SkipWhitespace(s: string, i: nat): (k: nat)
    requires i <= |s|
    ensures i <= k <= |s|
    ensures forall j :: i <= j < k ==> IsWhitespace(s[j])
    ensures k < |s| ==> !IsWhitespace(s[k])
    decreases |s| - i
  {
    if i < |s| && IsWhitespace(s[i]) then SkipWhitespace(s, i + 1) else i
  }

  /** Index of the first whitespace character at or after `i`, or `|s|`. */
  function SkipWord(s: string, i: nat): (k: nat)
    requires i <= |s|
    ensures i <= k <= |s|
    ensures forall j :: i <= j < k ==> !IsWhitespace(s[j])
    ensures k < |s| ==> IsWhitespace(s[k])
    decreases |s| - i
  {
    if i < |s| && !IsWhitespace(s[i]) then SkipWord(s, i + 1) else i
  }

  /** `s.split_whitespace().next()`: the first maximal run of non-whitespace
      characters, or nothing when `s` is all whitespace. */
  function FirstToken(s: string): (r: Option<string>)
    ensures r.None? <==> forall j :: 0 <= j < |s| ==> IsWhitespace(s[j])
    ensures r.Some? ==> |r.value| > 0 && forall j :: 0 <= j < |r.value| ==> !IsWhitespace(r.value[j])
    ensures r.Some? ==>
      exists a, e :: && 0 <= a <= e <= |s| && r.value == s[a..e]
                     && (forall j :: 0 <= j < a ==> IsWhitespace(s[j]))
                     && (e == |s| || IsWhitespace(s[e]))
  {
    var a := SkipWhitespace(s, 0);
    if a == |s| then None
    else
      var k := SkipWord(s, a);
      Some(s[a..k])
  }

  /** A leading word followed by whitespace is the first token, whatever
      follows. */
  lemma FirstTokenOfWord(word: string, sep: char, rest: string)
    requires |word| > 0 && forall j :: 0 <= j < |word| ==> !IsWhitespace(word[j])
    requires IsWhitespace(sep)
    ensures FirstToken(word + [sep] + rest) == Some(word)
  {
    var s := word + [sep] + rest;
    assert s[0] == word[0];
    assert SkipWhitespace(s, 0) == 0;
    var k := SkipWord(s, 0);
    assert s[|word|] == sep;
    assert forall j :: 0 <= j < |word| ==> s[j] == word[j];
    assert k == |word|;
    assert s[0..k] == word;
  }

  function LowerChar(c: char): (d: char) {
    if 'A' <= c <= 'Z' then (c as int + 32) as char else c
  }

  /** ASCII lower-casing; other characters are kept. */
  function Lowercase(s: string): (t: string)
    ensures |t| == |s|
    ensures forall i :: 0 <= i < |s| ==> t[i] == LowerChar(s[i])
  {
    seq(|s|, i requires 0 <= i < |s| => LowerChar(s[i]))
  }

  /** Index of the last `.` in `s`, if any. */
  function LastDot(s: string): (r: Option<nat>)
    ensures r.Some? ==> r.value < |s| && s[r.value] == '.'
                        && forall j :: r.value < j < |s| ==> s[j] != '.'
    ensures r.None? ==> forall j :: 0 <= j < |s| ==> s[j] != '.'
    decreases |s|
  {
    if s == [] then None
    else if s[|s| - 1] == '.' then Some(|s| - 1)
    else LastDot(s[..|s| - 1])
  }

  /** `Path::extension` of a file name: the text after the last `.`, except
      for `..`, a name without a dot, and a name whose only dot leads it. */
  function Extension(name: string): (r: Option<string>)
    ensures r.Some? ==> exists i :: 0 < i < |name| && name[i] == '.' && r.value == name[i + 1..]
  {
    if name == ".." then None
    else match LastDot(name)
      case None => None
      case Some(i) => if i == 0 then None else Some(name[i + 1..])
  }

  /** A name made of a non-empty stem, a dot and a dot-free suffix has that
      suffix as its extension (the name `..` excepted). */
  lemma ExtensionOfSuffix(stem: string, ext: string)
    requires |stem| > 0 && stem + "." + ext != ".."
    requires forall j :: 0 <= j < |ext| ==> ext[j] != '.'
    ensures Extension(stem + "." + ext) == Some(ext)
  {
    var name := stem + "." + ext;
    assert name[|stem|] == '.';
    forall j | |stem| < j < |name| ensures name[j] != '.' {
      assert name[j] == ext[j - |stem| - 1];
    }
    assert LastDot(name) == Some(|stem|);
    assert name[|stem| + 1..] == ext;
  }
}

=== FILE: types.dfy ===
/** The beatmap record and the file name it is saved under
    (src/types.rs). */
module BeatmapTypes {
  import opened StdText

  /** One most-played beatmap, as the fetch step records it. */
  datatype BeatmapInfo = BeatmapInfo(
    beatmapId: U32,
    beatmapsetId: U32,
    title: string,
    artist: string,
    version: string,
    playCount: U32,
    downloadLink: string)

  /** The characters `sanitize_filename` always replaces. */
  predicate IsForbidden(c: char) {
    c == '<' || c == '>' || c == ':' || c == '"' || c == '/' || c == '\\'
    || c == '|' || c == '?' || c == '*'
  }

  predicate IsUnsafe(c: char) {
    IsForbidden(c) || IsControl(c)
  }

  /** The characters `trim_matches` removes from both ends. */
  predicate IsTrimmed(c: char) {
    c == '.' || c == ' '
  }

  predicate AllSafe(s: string) {
    forall i :: 0 <= i < |s| ==> !IsUnsafe(s[i])
  }

  /** The per-character `map` of `sanitize_filename`. */
  function ReplaceUnsafe(c: char): (d: char)
    ensures !IsUnsafe(d)
    ensures d == c || d == '_'
  {
    if IsUnsafe(c) then '_' else c
  }

  function ReplaceAll(s: string): (t: string)
    ensures |t| == |s| && AllSafe(t)
  {
    seq(|s|, i requires 0 <= i < |s| => ReplaceUnsafe(s[i]))
  }

  /** Index of the first character at or after `i` that is not trimmed. */
  function TrimStartFrom(t: string, i: nat): (a: nat)
    requires i <= |t|
    ensures i <= a <= |t|
    ensures forall j :: i <= j < a ==> IsTrimmed(t[j])
    ensures a < |t| ==> !IsTrimmed(t[a])
    decreases |t| - i
  {
    if i < |t| && IsTrimmed(t[i]) then TrimStartFrom(t, i + 1) else i
  }

  /** One past the last character before `b` and at or after `a` that is
      not trimmed, or `a` when there is none. */
  function TrimEndFrom(t: string, a: nat, b: nat): (e: nat)
    requires a <= b <= |t|
    ensures a <= e <= b
    ensures forall j :: e <= j < b ==> IsTrimmed(t[j])
    ensures e > a ==> !IsTrimmed(t[e - 1])
    decreases b
  {
    if b > a && IsTrimmed(t[b - 1]) then TrimEndFrom(t, a, b - 1) else b
  }

  /** `trim_matches(|c| c == '.' || c == ' ')`. */
  function TrimMatches(t: string): string {
    var a := TrimStartFrom(t, 0);
    t[a..TrimEndFrom(t, a, |t|)]
  }

  /** `sanitize_filename`: replace every forbidden or control character by
      `_`, then strip dots and spaces from both ends. */
  function Sanitize(s: string): string {
    TrimMatches(ReplaceAll(s))
  }

  /** What `trim_matches` returns: a slice `t[a..a + |r|]` that neither starts
      nor ends with a dot or space, everything cut off on either side being a
      dot or a space. */
  lemma TrimMatchesSlice(t: string)
    ensures var r := TrimMatches(t); var a := TrimStartFrom(t, 0);
      && a + |r| <= |t| && r == t[a..a + |r|]
      && (forall j :: 0 <= j < a ==> IsTrimmed(t[j]))
      && (forall j :: a + |r| <= j < |t| ==> IsTrimmed(t[j]))
      && (r == [] || (!IsTrimmed(r[0]) && !IsTrimmed(r[|r| - 1])))
  {
  }

  /** `sanitize_filename` keeps exactly the safe characters and turns each
      unsafe one into `_`; its result contains no forbidden or control
      character, does not begin or end with `.` or ` `, and is the slice of
      the character-mapped input left after cutting off dots and spaces on
      both sides. */
  lemma SanitizeSpec(s: string)
    ensures var r := Sanitize(s); var t := ReplaceAll(s); var a := TrimStartFrom(t, 0);
      && AllSafe(r)
      && (r == [] || (!IsTrimmed(r[0]) && !IsTrimmed(r[|r| - 1])))
      && (forall i :: 0 <= i < |s| ==> t[i] == (if IsUnsafe(s[i]) then '_' else s[i]))
      && a + |r| <= |s| && r == t[a..a + |r|]
      && (forall j :: 0 <= j < a ==> IsTrimmed(t[j]))
      && (forall j :: a + |r| <= j < |s| ==> IsTrimmed(t[j]))
  {
    var t := ReplaceAll(s);
    TrimMatchesSlice(t);
    var a := TrimStartFrom(t, 0);
    var r := Sanitize(s);
    assert forall i :: 0 <= i < |r| ==> r[i] == t[a + i];
  }

  /** A string that is already safe and trimmed is its own sanitization. */
  lemma SanitizeFixedPoint(s: string)
    requires AllSafe(s)
    requires s == [] || (!IsTrimmed(s[0]) && !IsTrimmed(s[|s| - 1]))
    ensures Sanitize(s) == s
  {
    assert ReplaceAll(s) == s;
    assert TrimStartFrom(s, 0) == 0;
    assert TrimEndFrom(s, 0, |s|) == |s|;
  }

  /** Sanitizing twice is the same as sanitizing once. */
  lemma SanitizeIdempotent(s: string)
    ensures Sanitize(Sanitize(s)) == Sanitize(s)
  {
    SanitizeSpec(s);
    SanitizeFixedPoint(Sanitize(s));
  }

  /** `BeatmapInfo::filename`: "{beatmapset_id} {artist} - {title}.osz" with
      artist and title sanitized. */
  function Filename(b: BeatmapInfo): string {
    DecimalString(b.beatmapsetId) + " " + Sanitize(b.artist) + " - " + Sanitize(b.title) + ".osz"
  }

  lemma AllSafeConcat(x: string, y: string)
    requires AllSafe(x) && AllSafe(y)
    ensures AllSafe(x + y)
  {
    assert forall i :: 0 <= i < |x| ==> (x + y)[i] == x[i];
    assert forall i :: |x| <= i < |x + y| ==> (x + y)[i] == y[i - |x|];
  }

  lemma DigitsSafe(s: string)
    requires AllDigits(s)
    ensures AllSafe(s)
  {
    assert forall i :: 0 <= i < |s| ==> IsDigit(s[i]);
  }

  lemma SeparatorsSafe()
    ensures AllSafe(" ") && AllSafe(" - ") && AllSafe(".osz")
  {
    assert " - "[0] == ' ' && " - "[1] == '-' && " - "[2] == ' ';
    assert ".osz"[0] == '.' && ".osz"[1] == 'o' && ".osz"[2] == 's' && ".osz"[3] == 'z';
  }

  lemma FilenameSafe(b: BeatmapInfo)
    ensures AllSafe(Filename(b))
  {
    var id := DecimalString(b.beatmapsetId);
    var artist := Sanitize(b.artist);
    var title := Sanitize(b.title);
    SanitizeSpec(b.artist);
    SanitizeSpec(b.title);
    DigitsSafe(id);
    SeparatorsSafe();
    AllSafeConcat(id, " ");
    AllSafeConcat(id + " ", artist);
    AllSafeConcat(id + " " + artist, " - ");
    AllSafeConcat(id + " " + artist + " - ", title);
    AllSafeConcat(id + " " + artist + " - " + title, ".osz");
  }

  lemma JoinShape(id: string, rest: string)
    requires |id| >= 1
    ensures var f := (id + " ") + rest + ".osz";
      && |f| > |id| + 4
      && f[..|id| + 1] == id + " "
      && f[|f| - 4..] == ".osz"
      && f[0] == id[0] && f[|f| - 1] == 'z'
  {
  }

  /** The file name starts with the decimal set id and a space, ends with
      ".osz", contains no forbidden or control character and does not start
      or end with `.` or ` `. */
  lemma FilenameShape(b: BeatmapInfo)
    ensures var f := Filename(b); var id := DecimalString(b.beatmapsetId);
      && |f| > |id| + 4
      && f[..|id| + 1] == id + " "
      && f[|f| - 4..] == ".osz"
      && AllSafe(f)
      && !IsTrimmed(f[0]) && !IsTrimmed(f[|f| - 1])
  {
    var id := DecimalString(b.beatmapsetId);
    var rest := Sanitize(b.artist) + " - " + Sanitize(b.title);
    assert Filename(b) == (id + " ") + rest + ".osz";
    JoinShape(id, rest);
    assert IsDigit(id[0]);
    FilenameSafe(b);
  }

  lemma SanitizeExampleArtist()
    ensures Sanitize("A<B>") == "A_B_"
  {
    var a := ReplaceAll("A<B>");
    assert a[0] == 'A' && a[1] == '_' && a[2] == 'B' && a[3] == '_';
    assert a == "A_B_";
    SanitizeFixedPoint("A_B_");
  }

  lemma SanitizeExampleTitle()
    ensures Sanitize("Bad/Name:?") == "Bad_Name__"
  {
    var t := ReplaceAll("Bad/Name:?");
    assert t[0] == 'B' && t[1] == 'a' && t[2] == 'd' && t[3] == '_' && t[4] == 'N';
    assert t[5] == 'a' && t[6] == 'm' && t[7] == 'e' && t[8] == '_' && t[9] == '_';
    assert t == "Bad_Name__";
    SanitizeFixedPoint("Bad_Name__");
  }

  lemma DecimalExample()
    ensures DecimalString(42) == "42"
  {
    assert DigitChar(4) == '4' && DigitChar(2) == '2';
    assert DecimalString(4) == "4";
  }

  lemma ExampleJoin()
    ensures "42" + " " + "A_B_" + " - " + "Bad_Name__" + ".osz" == "42 A_B_ - Bad_Name__.osz"
  {
    assert "42" + " " == "42 ";
    assert "42 " + "A_B_" == "42 A_B_";
    assert "42 A_B_" + " - " == "42 A_B_ - ";
    assert "42 A_B_ - " + "Bad_Name__" == "42 A_B_ - Bad_Name__";
  }

  /** Worked example: set 42, title "Bad/Name:?", artist "A<B>". */
  lemma FilenameExample()
    ensures Filename(BeatmapInfo(1, 42, "Bad/Name:?", "A<B>", "", 0, "")) == "42 A_B_ - Bad_Name__.osz"
  {
    DecimalExample();
    SanitizeExampleArtist();
    SanitizeExampleTitle();
    ExampleJoin();
  }
}

=== FILE: wrappers.dfy ===
/** The optional value used wherever the source returns an `Option`. */
module Wrappers {

  datatype Option<+T> = None | Some(value: T) {

    /** The wrapped value, or `default` when there is none (Rust's `unwrap_or`). */
    function GetOr(default: T): T {
      match this
      case Some(v) => v
      case None => default
    }

    /** `self.or_else(|| other)`: this value when present, otherwise `other`. */
    function OrElse(other: Option<T>): Option<T> {
      match this
      case Some(_) => this
      case None => other
    }
  }
}
